=== FILE: README.md ===
# Omega TV storefront: account matching and subscription rules in Dafny

The storefront sells and renews subscriptions to an IPTV panel. It is a web
application: a signup form, a renew page with a card form, a status page, and
an admin screen. This project models its decision logic as pure Dafny
functions and proves properties of them:

- **Account matcher** (`src/app/api/match-account/route.ts`). A new signup
  (name, phone, user id, email) is matched against the panel's customer
  export, which is a CSV file.
  - `Csv`: the quote-aware CSV reader.
  - `MatchAccount`: phone and name normalisation, the name similarity score,
    and the three-way decision `auto_link` / `review_required` / `no_match`.
  - `Levenshtein`: the single-row dynamic program that computes the score's
    edit distance, proved equal to the recursive textbook definition.
  - `Signup`: the request handler. It picks the `DD-MM-YYYY` expiry token
    and builds the row to write for each outcome.
- **Renew page** (`src/app/renew/page.tsx`), module `Renew`: the card
  number, card expiry and CVV input formatters, and the `PLANS` price table.
- **Subscription status** (`src/app/api/subscription/route.ts`), module
  `SubscriptionStatus`: which user is asked about, the pending/unlinked
  fallback, days remaining, the active/expired status, and the plan name.
- **Admin routes** (`src/app/api/admin/link/route.ts`,
  `src/app/api/admin/resolve/route.ts`), modules `AdminLink` and
  `AdminResolve`.
  - The admin allow-lists.
  - Linking a user to a panel account: a subscription upsert, then marking
    the user's pending matches "linked".
  - Resolving a support request or a pending match by id.

`Store` is the database as an in-memory record of maps:
- subscriptions by user id;
- pending matches by row id;
- support requests by row id.

Each route is a function, and each has its own shape:
- `Signup.HandleSignup` takes the signup request and the loaded customer
  list. It returns an `Outcome`: the reply, plus the one row to insert, if
  any.
- `SubscriptionStatus.GetSubscription` only reads. It takes the query
  parameter, the session, the store and the current time, and returns a
  `Reply`.
- `AdminLink.Link` and `AdminResolve.Resolve` take the caller, the request
  body and the store. `Resolve` also takes the `ADMIN_EMAILS` value. Both
  return a status code and the new store.
`Text`, `Seqs` and `Wrappers` hold the JavaScript built-ins the code relies
on:
- `replace(/\D/g, '')`, `toLowerCase`, `trim`, `split` and `filter`, on
  ASCII;
- an `Option` type for absent JSON fields and nullable columns.

Modelling choices:
- Scores are exact `real`s, `(L - d) / L`.
- Times are integers in milliseconds.
- The clock, the file read, the session lookup and the environment variable
  are parameters.

## Model

| member | source | states |
|---|---|---|
| `MatchAccount.NormalizePhone` | src/app/api/match-account/route.ts:39-41 | the normalised phone is all digits and holds every digit of the input exactly as often as the input does |
| `MatchAccount.NormalizePhoneFacts` | src/app/api/match-account/route.ts:39-41 | normalising is idempotent; it distributes over concatenation, so digit order is kept; a character survives iff it is a digit of the input |
| `Text.DigitsConcat` | src/app/api/match-account/route.ts:40 | removing non-digits from a concatenation removes them from each part |
| `MatchAccount.NormalizeName` | src/app/api/match-account/route.ts:43-45 | the normalised name is no longer than the input, has no upper-case letter, and has no whitespace at either end |
| `MatchAccount.NormalizeNameOfNormal` | src/app/api/match-account/route.ts:43-45 | a lower-case, unpadded name without four trailing digits normalises to itself |
| `MatchAccount.NormalizeNameStrips` | src/app/api/match-account/route.ts:43-45 | any name followed by four digits normalises as that name lower-cased and trimmed |
| `MatchAccount.NormalizeNameKeeps` | src/app/api/match-account/route.ts:43-45 | a name not ending in four digits is only lower-cased and trimmed |
| `MatchAccount.NormalizeNameLongRun` | src/app/api/match-account/route.ts:44 | of five trailing digits only the last four go: "john12345" becomes "john1" |
| `MatchAccount.NormalizeNameDropsYear` | src/app/api/match-account/route.ts:44 | "johnsmith1234" loses its four trailing digits and becomes "johnsmith" |
| `Text.Trim` | src/app/api/match-account/route.ts:44 | the trimmed string has no whitespace at either end and is made of characters of the input |
| `Text.TrimIsSlice` | src/app/api/match-account/route.ts:44 | the trimmed string is a contiguous slice of the input |
| `MatchAccount.RatioFacts` | src/app/api/match-account/route.ts:58 | `(L - d) / L` with `d <= L` lies in [0, 1] and is 1 exactly when `d` is 0 |
| `MatchAccount.NameSimilarityRange` | src/app/api/match-account/route.ts:50-58 | the score of two normalised names is 0 if either is empty, lies in [0, 1], is 1 iff the names are equal and non-empty, and is symmetric |
| `MatchAccount.SimilarityRange` | src/app/api/match-account/route.ts:47-59 | the same for raw names, through their normal forms |
| `MatchAccount.SimilarityExample` | src/app/api/match-account/route.ts:47-59 | "John Smith" against "johnsmith1234" scores exactly 9/10 |
| `Levenshtein.Levenshtein` | src/app/api/match-account/route.ts:61-80 | the single-row dynamic program, with its in-place updates, returns the unit-cost edit distance |
| `Levenshtein.EditDistanceFacts` | src/app/api/match-account/route.ts:61-80 | the distance is at least the length difference and at most the longer length; it is 0 iff the strings are equal; it is symmetric |
| `Levenshtein.OneInsertion` | src/app/api/match-account/route.ts:61-80 | strings that differ by one inserted character are at distance 1 |
| `Csv.Parse` | src/app/api/match-account/route.ts:82-127 | every row returned has at least two fields and no field contains `\r` |
| `Csv.ScanGood` | src/app/api/match-account/route.ts:91-116 | the character loop keeps only rows of two or more `\r`-free fields when its input has no `\r` |
| `Csv.ReadField` | src/app/api/match-account/route.ts:94-104 | a quoted field with doubled inner quotes, then a comma, is read back as exactly that field |
| `Csv.ReadRows` | src/app/api/match-account/route.ts:94-116 | reading written rows leaves the reader with all but the last row finished and the last one pending |
| `Csv.RoundTrip` | src/app/api/match-account/route.ts:82-127 | rows of at least two `\r`-free fields, written quoted with `"` doubled and joined by `,` and `\n`, parse back to the same rows, with or without a final newline |
| `MatchAccount.LoadCustomers` | src/app/api/match-account/route.ts:129-148 | an unreadable export gives no customers; otherwise the header row is dropped and each later row gives one customer, in order, with its id and username from the first two fields, its expiry and notes from the third and fifth or empty when absent, and its phone normalised |
| `MatchAccount.LoadWritten` | src/app/api/match-account/route.ts:132-141 | an export written as a header plus customer rows loads back as exactly those customers, missing columns read as `''` |
| `Seqs.Filter` | src/app/api/match-account/route.ts:156 | a filter keeps exactly the elements that pass, and no more than there were |
| `Seqs.FilterSingle` | src/app/api/match-account/route.ts:161-166 | a filter keeps exactly one element iff exactly one element passes |
| `MatchAccount.NameOnlyFallback` | src/app/api/match-account/route.ts:159-172 | with no phone match: `review_required` at confidence 0.85 iff exactly one customer's name scores 0.85 or more; otherwise `no_match` at 0 without a customer |
| `MatchAccount.Best` | src/app/api/match-account/route.ts:175-185 | the loop picks the first strictly highest score above 0, and none when no score is above 0 |
| `MatchAccount.Rank` | src/app/api/match-account/route.ts:187-198 | a result carries a customer iff it is not `no_match`, and that customer is one of the phone matches |
| `MatchAccount.RankFacts` | src/app/api/match-account/route.ts:174-198 | link iff some score is 0.85 or more; review iff the best is in [0.50, 0.85); no match iff all are below 0.50; the confidence is the best score, or 0 when no score is above 0; the chosen customer is the first to reach it |
| `MatchAccount.MatchCustomer` | src/app/api/match-account/route.ts:151-199 | `auto_link` only for a listed customer whose phone equals the normalised input of at least ten digits; `no_match` never carries a customer; every other result carries a listed customer |
| `MatchAccount.ShortPhoneNeverLinks` | src/app/api/match-account/route.ts:156 | a phone of fewer than ten digits is never linked automatically |
| `MatchAccount.PhoneDecision` | src/app/api/match-account/route.ts:151-199 | with a phone match, the status is decided by the best score among the phone matches, with each direction proved; the confidence is that score, or 0 when no score is above 0; the customer is the first phone match reaching it |
| `Signup.FindDate` | src/app/api/match-account/route.ts:218 | finds the leftmost `\d{2}-\d{2}-\d{4}` match, and finds none iff there is none |
| `Signup.ExpiryToken` | src/app/api/match-account/route.ts:217-223 | the token is absent iff the expiry text has no date; otherwise it is ten characters: four digits, `-`, two digits, `-`, two digits |
| `Signup.ExpiryTokenSplits` | src/app/api/match-account/route.ts:218-221 | the token is the leftmost date split on `-` into day, month and year, put back together year first |
| `Signup.ExpiryTokenExample` | src/app/api/match-account/route.ts:217-221 | "15-01-2027 13:39\n352 days left" gives "2027-01-15" |
| `Signup.HandleSignup` | src/app/api/match-account/route.ts:201-306 | 400 with no write iff name, phone or user id is missing. `auto_link` writes an active "1 Month" subscription at 2500 cents with the expiry token. A review writes a pending row naming the customer and confidence. No match writes a pending row with neither |
| `Signup.AutoLinkNeedsPhone` | src/app/api/match-account/route.ts:216-233 | a subscription is written only for a phone of at least ten digits, and it names a listed customer with that phone |
| `Renew.FirstMatchOfDigits` | src/app/renew/page.tsx:141-142 | on a digit string, `/\d{4,16}/` matches the first sixteen digits, or nothing when there are fewer than four |
| `Renew.Chunks` | src/app/renew/page.tsx:143-146 | the loop's pieces all have four characters except the last, which has one to four; there are none only for an empty match |
| `Renew.CardShortUnchanged` | src/app/renew/page.tsx:139-148 | with fewer than four digits the input comes back unchanged |
| `Renew.CardGrouped` | src/app/renew/page.tsx:139-148 | with four digits or more the output holds only digits and spaces; its digits are the first min(16, n) input digits; split on spaces it gives the groups of four |
| `Renew.CardIdempotent` | src/app/renew/page.tsx:139-148 | formatting a formatted card number changes nothing |
| `Renew.ExpiryShape` | src/app/renew/page.tsx:150-156 | with two digits or more: two digits, then the only `/`, then at most two digits, five characters at most, keeping the first four input digits; otherwise the input's digits |
| `Renew.ExpiryIdempotent` | src/app/renew/page.tsx:150-156 | formatting a formatted expiry changes nothing |
| `Renew.Cvv` | src/app/renew/page.tsx:325 | the CVV is all digits, at most four of them, and a prefix of the digits typed |
| `Renew.CvvIdempotent` | src/app/renew/page.tsx:325 | filtering a filtered CVV changes nothing |
| `Renew.PlanSavings` | src/app/renew/page.tsx:26-30 | each plan's savings label states months times the one-month price minus the plan price, in whole dollars ("Save $30", "Save $90"); the one-month plan has no label |
| `Renew.LongerPlansCheaper` | src/app/renew/page.tsx:26-30 | a longer plan costs strictly less per month; every plan allows three connections |
| `SubscriptionStatus.GetSubscription` | src/app/api/subscription/route.ts:4-76 | 401 iff there is neither a `userId` parameter nor a session; details iff the user has a subscription; otherwise "pending" iff the user has a pending match, else "unlinked". The details carry the row's username, and a subscription object holding its username, plan name, price, status and expiry, without the panel password |
| `SubscriptionStatus.PasswordNotShown` | src/app/api/subscription/route.ts:67-75 | changing a user's stored panel password changes nothing in any reply |
| `SubscriptionStatus.DaysUntil` | src/app/api/subscription/route.ts:51 | the days are the ceiling of the milliseconds left over a day's length |
| `SubscriptionStatus.DaysUntilPositive` | src/app/api/subscription/route.ts:51-55 | days remain iff the expiry is strictly ahead of now |
| `SubscriptionStatus.DaysRemaining` | src/app/api/subscription/route.ts:48-52 | no days iff no expiry; otherwise the ceiling of the time left in days |
| `SubscriptionStatus.ShownPlan` | src/app/api/subscription/route.ts:65 | the stored plan name when there is one, otherwise "Omega TV Premium" |
| `SubscriptionStatus.DetailsFacts` | src/app/api/subscription/route.ts:47-65 | with an expiry the status is "active" iff it is ahead of now, else "expired"; without one the stored status shows; reported days are never negative, are null iff there is no expiry, and are 0 once it has passed |
| `AdminLink.OnlyListedAdmins` | src/app/api/admin/link/route.ts:34-36 | only a user whose email is one of the two listed addresses may link |
| `AdminLink.Upsert` | src/app/api/admin/link/route.ts:44-74 | an existing subscription gets the new username, password-or-null and "active", keeping expiry, plan and price; a new one is active "1 Month" at 2500 cents with no expiry; other users' rows are untouched |
| `AdminLink.MarkLinked` | src/app/api/admin/link/route.ts:76-80 | every pending match of the user becomes "linked", whatever its status; all other rows stay as they were |
| `AdminLink.Link` | src/app/api/admin/link/route.ts:29-82 | 401 iff the caller is not an admin; 400 iff the user id or username is missing; neither changes the store; otherwise the upsert and the cascade, with support requests untouched |
| `AdminLink.LinkIdempotent` | src/app/api/admin/link/route.ts:44-80 | linking twice leaves the store as linking once did |
| `AdminLink.LinkThenStatus` | src/app/api/admin/link/route.ts:62-74 | after a link the status route shows the linked username; a newly created row shows as active "1 Month" with no days count |
| `AdminResolve.AllowListMembers` | src/app/api/admin/resolve/route.ts:4 | an address is on the allow-list iff it is non-empty and is the trim of one comma-separated piece of the variable |
| `AdminResolve.AllowListEntries` | src/app/api/admin/resolve/route.ts:4 | no allow-list entry is empty or has whitespace at either end |
| `AdminResolve.EmptyAllowList` | src/app/api/admin/resolve/route.ts:4 | an unset or empty variable gives an empty allow-list |
| `AdminResolve.AllowListRoundTrip` | src/app/api/admin/resolve/route.ts:4 | non-empty, comma-free, trimmed addresses written comma-separated read back as the same list |
| `Text.SplitJoin` | src/app/api/admin/resolve/route.ts:4 | splitting separator-free parts joined by the separator gives back the parts |
| `AdminResolve.MarkById` | src/app/api/admin/resolve/route.ts:17-26 | only the row with that id, if there is one, is marked; no row is added or removed |
| `AdminResolve.MarkByIdTwice` | src/app/api/admin/resolve/route.ts:17-26 | marking the same id twice with an idempotent mark leaves the table as marking once |
| `AdminResolve.Resolve` | src/app/api/admin/resolve/route.ts:11-29 | 401 iff the caller is not on the allow-list, and then the store is unchanged. "support" marks that support request "resolved", and "pending" marks that pending match "resolved"; each touches only its own table. Any other type changes nothing and still succeeds |
| `AdminResolve.UnsetVariableLocksOut` | src/app/api/admin/resolve/route.ts:4-13 | with the variable unset every caller gets 401 |
| `AdminResolve.ResolveIdempotent` | src/app/api/admin/resolve/route.ts:15-29 | resolving twice leaves the store as resolving once did |

## Left out

- The `id` and `auto_renew` columns that the status route copies into its
  subscription object. The store keys subscriptions by user id and has no
  auto-renew flag, so the model's subscription object has neither.
- File I/O and logging. The customer export is passed as text, or `None`
  when it cannot be read (the `catch` that returns `[]`). `console.*`
  calls are dropped.
- The signup route's three Pushover notifications: after the auto-link
  insert, after the review insert and after the no-match insert. They are
  outgoing HTTP calls whose failures are caught and logged. They do not
  affect any reply or write. The admin link route defines the same notifier
  but never calls it. The status and resolve routes send none.
- Database query semantics.
  - `.single()` gives no row when several rows match. The model keeps one
    subscription per user and counts a user as pending when any pending
    row of theirs exists, whatever its status.
  - Timestamps (`updated_at`, `reviewed_at`, `resolved_at`) are not
    modelled.
  - Failed inserts and updates are not modelled. The signup route logs a
    failed subscription insert or review insert, and then replies as if it
    had succeeded. It does not check the no-match insert at all. The admin
    link and resolve routes ignore the errors of their writes.
- The `500` replies for thrown exceptions.
- Date conversions: `new Date(...).toISOString()`, `toLocaleDateString`
  and `Date.now()`.
  - The signup's expiry stops at the reordered `YYYY-MM-DD` text. The
    route then builds a `Date` from it. Node's date parser accepts any day
    from 01 to 31 and carries an overflowing day into the next month, so
    `31-02-2027` becomes 3 March 2027. A day of `00` or above 31, or a
    month of `00` or above 12 (as in `00-01-2027` or `15-13-2027`), gives
    an invalid date. `toISOString` then throws and the route answers 500.
    The model does not tell these cases apart.
  - The status route takes the expiry as milliseconds and reports it
    instead of the formatted date.
  - A `NaN` expiry is not modelled.
- Floating point. Scores are exact reals. `Math.ceil` is applied to the
  exact quotient: for realistic times, the double quotient of two
  integer millisecond counts does not round across an integer.
- Non-ASCII text. `toLowerCase`, `trim` and `\s` are modelled on ASCII only.
- `MatchAccount.MatchCustomer`: its `email` argument is accepted and
  ignored, as in the source.
- Authentication: the session lookup (`getUser`) is a parameter, a user
  or `None`.
- Payments, registration, chat, support tickets, the admin data route and
  all React pages other than the renew-page formatters. None of them holds
  matching or status logic.
- The automatic link and the admin link record "1 Month" at 2500 cents,
  while the renew page's `PLANS` table prices one month at 2000 cents. The
  model keeps both values as written.

=== FILE: admin_link.dfy ===
/**
 * The admin link route (`POST` in src/app/api/admin/link/route.ts): an
 * allow-listed admin attaches a panel username to a user, creating or
 * updating the user's subscription and marking the user's pending matches
 * linked.
 */
module AdminLink {
  import opened Wrappers
  import opened Text
  import opened Store
  import SubscriptionStatus

  /** The route's fixed allow-list. */
  const LinkAdmins: seq<string> := ["setharterburn@gmail.com", "seth@arterburn.me"]

  /** The plan and price a newly created subscription records. */
  const NewPlan := "1 Month"
  const NewPriceCents := 2500

  /** The JSON body; a field that is absent is `None`. */
  datatype LinkRequest = LinkRequest(userId: Option<string>, iptvUsername: Option<string>, iptvPassword: Option<string>)

  datatype Code = Ok | BadRequest | Unauthorized

  /** `iptvPassword || null`. */
  function Password(req: LinkRequest): Option<string> {
    if Given(req.iptvPassword) then req.iptvPassword else None
  }

  /** The subscription after the link: the existing row with the new
      username, password and status "active", or a new active "1 Month" row
      at 2500 cents without an expiry. */
  function Upsert(subs: map<string, Subscription>, userId: string, username: string, password: Option<string>): (r: map<string, Subscription>)
    ensures r.Keys == subs.Keys + {userId}
    ensures forall u :: u in subs && u != userId ==> r[u] == subs[u]
    ensures r[userId].iptvUsername == username && r[userId].iptvPassword == password && r[userId].status == "active"
    ensures userId in subs ==> r[userId].expiresAt == subs[userId].expiresAt
                               && r[userId].planName == subs[userId].planName
                               && r[userId].priceCents == subs[userId].priceCents
    ensures userId !in subs ==> r[userId] == Subscription(username, password, "active", None, Some(NewPlan), NewPriceCents)
  {
    if userId in subs then
      subs[userId := subs[userId].(iptvUsername := username, iptvPassword := password, status := "active")]
    else
      subs[userId := Subscription(username, password, "active", None, Some(NewPlan), NewPriceCents)]
  }

  /** Every pending match of `userId` marked "linked". */
  function MarkLinked(pending: map<string, PendingMatch>, userId: string): (r: map<string, PendingMatch>)
    ensures r.Keys == pending.Keys
    ensures forall id :: id in pending && pending[id].userId == userId ==> r[id] == pending[id].(status := "linked")
    ensures forall id :: id in pending && pending[id].userId != userId ==> r[id] == pending[id]
  {
    map id | id in pending :: if pending[id].userId == userId then pending[id].(status := "linked") else pending[id]
  }

  /** The route on a store: 401 for anyone but an allow-listed admin, 400
      without a user id and a username, otherwise the upsert and the cascade. */
  function Link(user: Option<User>, req: LinkRequest, store: Store): (r: (Code, Store))
    ensures r.0 == Unauthorized <==> !Authorized(user, LinkAdmins)
    ensures r.0 == BadRequest <==> Authorized(user, LinkAdmins) && (!Given(req.userId) || !Given(req.iptvUsername))
    ensures r.0 != Ok ==> r.1 == store
    ensures r.0 == Ok ==>
      && r.1.subscriptions == Upsert(store.subscriptions, req.userId.value, req.iptvUsername.value, Password(req))
      && r.1.pending == MarkLinked(store.pending, req.userId.value)
      && r.1.support == store.support
  {
    if !Authorized(user, LinkAdmins) then (Unauthorized, store)
    else if !Given(req.userId) || !Given(req.iptvUsername) then (BadRequest, store)
    else
      var u := req.userId.value;
      (Ok, store.(subscriptions := Upsert(store.subscriptions, u, req.iptvUsername.value, Password(req)),
                  pending := MarkLinked(store.pending, u)))
  }

  /** Only the two listed addresses can link, and a user without an email
      cannot. */
  lemma OnlyListedAdmins(user: Option<User>)
    ensures Authorized(user, LinkAdmins) <==>
      user.Some? && user.value.email.Some? &&
      (user.value.email.value == "setharterburn@gmail.com" || user.value.email.value == "seth@arterburn.me")
  {
    assert "" != "setharterburn@gmail.com" && "" != "seth@arterburn.me";
  }

  /** Linking the same user to the same account twice leaves the store as
      linking once did. */
  lemma LinkIdempotent(user: Option<User>, req: LinkRequest, store: Store)
    ensures Link(user, req, Link(user, req, store).1) == Link(user, req, store)
  {
    var (code, s1) := Link(user, req, store);
    if code == Ok {
      var u := req.userId.value;
      var (_, s2) := Link(user, req, s1);
      assert s2.subscriptions == s1.subscriptions;
      assert s2.pending == s1.pending;
    }
  }

  /** After a link the user's status page shows the linked username; for a
      user who had no subscription it shows an active "1 Month" plan with no
      expiry. */
  lemma LinkThenStatus(user: Option<User>, req: LinkRequest, store: Store, now: int)
    requires Link(user, req, store).0 == Ok
    ensures var after := Link(user, req, store).1;
      var r := SubscriptionStatus.GetSubscription(req.userId, None, after, now);
      && r.Details? && r.username == req.iptvUsername.value
      && (req.userId.value !in store.subscriptions ==>
            r.status == "active" && r.daysRemaining.None? && r.planName == NewPlan)
  {
  }
}

=== FILE: admin_resolve.dfy ===
/**
 * The admin resolve route (`POST` in src/app/api/admin/resolve/route.ts):
 * the allow-list read from the `ADMIN_EMAILS` environment variable, and
 * marking one support request or one pending match resolved.
 */
module AdminResolve {
  import opened Wrappers
  import opened Text
  import opened Seqs
  import opened Store

  /** `.map(e => e.trim())`. */
  function TrimAll(parts: seq<string>): (r: seq<string>)
    ensures |r| == |parts|
    ensures forall i :: 0 <= i < |parts| ==> r[i] == Trim(parts[i])
  {
    seq(|parts|, i requires 0 <= i < |parts| => Trim(parts[i]))
  }

  predicate NonEmpty(e: string) {
    e != ""
  }

  /** `(env || '').split(',').map(e => e.trim()).filter(Boolean)`. */
  function ParseAllowList(env: Option<string>): seq<string> {
    Filter(TrimAll(Split(env.GetOr(""), ',')), NonEmpty)
  }

  /** `e` is one of `parts` trimmed. */
  predicate TrimmedPiece(parts: seq<string>, e: string) {
    exists i :: 0 <= i < |parts| && Trim(parts[i]) == e
  }

  /** The trimmed pieces are exactly the trims of the pieces. */
  lemma TrimAllMembers(parts: seq<string>, e: string)
    ensures e in TrimAll(parts) <==> TrimmedPiece(parts, e)
  {
    var trimmed := TrimAll(parts);
    if e in trimmed {
      var i :| 0 <= i < |trimmed| && trimmed[i] == e;
      assert Trim(parts[i]) == e;
    }
    if TrimmedPiece(parts, e) {
      var i :| 0 <= i < |parts| && Trim(parts[i]) == e;
      assert trimmed[i] == e;
    }
  }

  /** An address is on the allow-list exactly when it is not empty and is the
      trimmed form of one of the comma-separated pieces of the variable. */
  lemma AllowListMembers(env: Option<string>, e: string)
    ensures e in ParseAllowList(env) <==> e != "" && TrimmedPiece(Split(env.GetOr(""), ','), e)
  {
    var parts := Split(env.GetOr(""), ',');
    var t := TrimAll(parts);
    assert ParseAllowList(env) == Filter(t, NonEmpty);
    assert e in Filter(t, NonEmpty) <==> e in t && NonEmpty(e);
    TrimAllMembers(parts, e);
  }

  /** No entry of the allow-list is empty or has whitespace at either end. */
  lemma AllowListEntries(env: Option<string>, e: string)
    ensures e in ParseAllowList(env) ==> e != "" && !IsSpace(e[0]) && !IsSpace(e[|e| - 1])
  {
    if e in ParseAllowList(env) {
      AllowListMembers(env, e);
      var parts := Split(env.GetOr(""), ',');
      var i :| 0 <= i < |parts| && Trim(parts[i]) == e;
    }
  }

  /** An unset variable and an empty one both allow nobody. */
  lemma EmptyAllowList()
    ensures ParseAllowList(None) == []
    ensures ParseAllowList(Some("")) == []
  {
    assert Split("", ',') == [""];
    assert TrimAll([""]) == [""];
    assert !NonEmpty("");
    FilterNone(TrimAll([""]), NonEmpty);
  }

  /** Writing a list of non-empty, comma-free, already trimmed addresses into
      the variable, comma-separated, reads the same list back. */
  lemma AllowListRoundTrip(emails: seq<string>)
    requires |emails| >= 1
    requires forall i :: 0 <= i < |emails| ==> emails[i] != "" && ',' !in emails[i]
    requires forall i :: 0 <= i < |emails| ==> !IsSpace(emails[i][0]) && !IsSpace(emails[i][|emails[i]| - 1])
    ensures ParseAllowList(Some(Join(emails, ','))) == emails
  {
    SplitJoin(emails, ',');
    forall i | 0 <= i < |emails|
      ensures Trim(emails[i]) == emails[i]
    {
      TrimOfTrimmed(emails[i]);
    }
    assert TrimAll(emails) == emails;
    FilterAll(emails, NonEmpty);
  }

  /** The JSON body; a field that is absent is `None`. */
  datatype ResolveRequest = ResolveRequest(id: Option<string>, kind: Option<string>)

  datatype Code = Ok | Unauthorized

  /** `.update({ status: 'resolved' }).eq('id', id)` on one table: the row
      with that id, if there is one, is marked; nothing else changes. */
  function MarkById<R>(rows: map<string, R>, id: Option<string>, mark: R -> R): (r: map<string, R>)
    ensures r.Keys == rows.Keys
    ensures forall k :: k in rows && Some(k) != id ==> r[k] == rows[k]
    ensures id.Some? && id.value in rows ==> r[id.value] == mark(rows[id.value])
  {
    if id.Some? && id.value in rows then rows[id.value := mark(rows[id.value])] else rows
  }

  function ResolvedSupport(row: SupportRequest): SupportRequest {
    row.(status := "resolved")
  }

  function ResolvedPending(row: PendingMatch): PendingMatch {
    row.(status := "resolved")
  }

  /** Marking by id twice with an idempotent mark is marking once. */
  lemma {:induction false} MarkByIdTwice<R>(rows: map<string, R>, id: Option<string>, mark: R -> R)
    requires forall x :: mark(mark(x)) == mark(x)
    ensures MarkById(MarkById(rows, id, mark), id, mark) == MarkById(rows, id, mark)
  {
    if id.Some? && id.value in rows {
      var once := MarkById(rows, id, mark);
      assert mark(once[id.value]) == once[id.value];
    }
  }

  /** The route on a store, with the allow-list read from `env`: 401 for anyone
      not on it; otherwise "support" resolves that support request, "pending"
      that pending match, and any other kind changes nothing, all with 200. */
  function Resolve(user: Option<User>, env: Option<string>, req: ResolveRequest, store: Store): (r: (Code, Store))
    ensures r.0 == Unauthorized <==> !Authorized(user, ParseAllowList(env))
    ensures r.0 == Unauthorized ==> r.1 == store
    ensures r.0 == Ok ==>
      && r.1.subscriptions == store.subscriptions
      && (req.kind == Some("support") ==>
            r.1.support == MarkById(store.support, req.id, ResolvedSupport) && r.1.pending == store.pending)
      && (req.kind == Some("pending") ==>
            r.1.pending == MarkById(store.pending, req.id, ResolvedPending) && r.1.support == store.support)
      && (req.kind != Some("support") && req.kind != Some("pending") ==> r.1 == store)
  {
    if !Authorized(user, ParseAllowList(env)) then (Unauthorized, store)
    else if req.kind == Some("support") then (Ok, store.(support := MarkById(store.support, req.id, ResolvedSupport)))
    else if req.kind == Some("pending") then (Ok, store.(pending := MarkById(store.pending, req.id, ResolvedPending)))
    else (Ok, store)
  }

  /** Nobody is an admin while the variable is unset. */
  lemma UnsetVariableLocksOut(user: Option<User>, req: ResolveRequest, store: Store)
    ensures Resolve(user, None, req, store) == (Unauthorized, store)
  {
    EmptyAllowList();
  }

  /** Resolving is idempotent: a second identical request changes nothing more. */
  lemma ResolveIdempotent(user: Option<User>, env: Option<string>, req: ResolveRequest, store: Store)
    ensures Resolve(user, env, req, Resolve(user, env, req, store).1) == Resolve(user, env, req, store)
  {
    if req.kind == Some("support") {
      MarkByIdTwice(store.support, req.id, ResolvedSupport);
    } else if req.kind == Some("pending") {
      MarkByIdTwice(store.pending, req.id, ResolvedPending);
    }
  }
}

=== FILE: csv.dfy ===
/**
 * The quote-aware CSV reader of the customer export
 * (`parseCSVWithQuotes` in src/app/api/match-account/route.ts).
 */
module Csv {
  import opened Text

  type Row = seq<string>

  /** The reader's state between two characters: finished rows, the fields
      of the row being read, the field being read, and the quote mode. */
  datatype Scanner = Scanner(rows: seq<Row>, row: Row, field: string, inQuotes: bool)

  const Start := Scanner([], [], "", false)

  /** A row is kept only when it has more than one field. */
  function Keep(rows: seq<Row>, r: Row): seq<Row> {
    if |r| > 1 then rows + [r] else rows
  }

  /** A `\n` outside quotes: the field ends the row, which is kept or dropped. */
  function EndRow(st: Scanner): Scanner {
    Scanner(Keep(st.rows, st.row + [st.field]), [], "", st.inQuotes)
  }

  predicate CleanRow(r: Row) {
    forall k :: 0 <= k < |r| ==> '\r' !in r[k]
  }

  /** What the reader promises about the rows it has produced so far. */
  predicate Good(st: Scanner) {
    && (forall i :: 0 <= i < |st.rows| ==> |st.rows[i]| >= 2 && CleanRow(st.rows[i]))
    && CleanRow(st.row)
    && '\r' !in st.field
  }

  /**
   * The character loop: a `"` inside quotes followed by another `"` is a
   * literal quote and consumes both, any other `"` toggles the quote mode;
   * `,` and `\n` separate fields and rows only outside quotes; every other
   * character joins the current field.
   */
  function Scan(s: string, st: Scanner): Scanner
    decreases |s|
  {
    if |s| == 0 then st
    else if s[0] == '"' then
      if st.inQuotes && |s| > 1 && s[1] == '"' then Scan(s[2..], st.(field := st.field + "\""))
      else Scan(s[1..], st.(inQuotes := !st.inQuotes))
    else if s[0] == ',' && !st.inQuotes then
      Scan(s[1..], st.(row := st.row + [st.field], field := ""))
    else if s[0] == '\n' && !st.inQuotes then
      Scan(s[1..], EndRow(st))
    else
      Scan(s[1..], st.(field := st.field + [s[0]]))
  }

  /** After the last character: a pending field or row is pushed, and the
      row kept if it has more than one field. */
  function Finish(st: Scanner): seq<Row> {
    if st.field != "" || |st.row| > 0 then Keep(st.rows, st.row + [st.field]) else st.rows
  }

  /** `parseCSVWithQuotes`: `\r` is removed everywhere first; every row has at
      least two fields and no field contains `\r`. */
  function Parse(content: string): (rows: seq<Row>)
    ensures forall i :: 0 <= i < |rows| ==> |rows[i]| >= 2
    ensures forall i, k :: 0 <= i < |rows| && 0 <= k < |rows[i]| ==> '\r' !in rows[i][k]
  {
    var s := Remove(content, '\r');
    ScanGood(s, Start);
    Finish(Scan(s, Start))
  }

  /** Reading `\r`-free text from a `Good` state ends in a `Good` state. */
  lemma {:induction false} ScanGood(s: string, st: Scanner)
    requires Good(st) && '\r' !in s
    ensures Good(Scan(s, st))
    decreases |s|
  {
    if |s| > 1 && s[0] == '"' && st.inQuotes && s[1] == '"' {
      assert '\r' !in s[2..];
      ScanGood(s[2..], st.(field := st.field + "\""));
    } else if |s| > 0 {
      assert '\r' !in s[1..];
      var next := if s[0] == '"' then st.(inQuotes := !st.inQuotes)
        else if s[0] == ',' && !st.inQuotes then st.(row := st.row + [st.field], field := "")
        else if s[0] == '\n' && !st.inQuotes then EndRow(st)
        else st.(field := st.field + [s[0]]);
      ScanGood(s[1..], next);
    }
  }

  // ----- Writing rows the way the reader reads them back -----

  /** A field's text inside quotes: every `"` doubled. */
  function Escape(f: string): (r: string)
    ensures forall c :: c in r ==> c in f || c == '"'
  {
    if |f| == 0 then ""
    else (if f[0] == '"' then "\"\"" else [f[0]]) + Escape(f[1..])
  }

  function Quote(f: string): string {
    "\"" + Escape(f) + "\""
  }

  /** The fields of a row, each quoted, separated by `,`. */
  function EncodeRow(r: Row): string
    requires |r| >= 1
  {
    if |r| == 1 then Quote(r[0]) else Quote(r[0]) + "," + EncodeRow(r[1..])
  }

  /** Rows separated by `\n`, with no newline after the last one. */
  function Encode(rows: seq<Row>): string
    requires forall i :: 0 <= i < |rows| ==> |rows[i]| >= 1
  {
    if |rows| == 0 then ""
    else if |rows| == 1 then EncodeRow(rows[0])
    else EncodeRow(rows[0]) + "\n" + Encode(rows[1..])
  }

  /** `Scan` as the lemmas below state it: a non-recursive name, so that each
      proof unfolds the character loop only where a step lemma says so. */
  function Read(s: string, st: Scanner): Scanner {
    Scan(s, st)
  }

  lemma ReadEscapedQuote(s: string, st: Scanner)
    requires |s| > 1 && s[0] == '"' && s[1] == '"' && st.inQuotes
    ensures Read(s, st) == Read(s[2..], st.(field := st.field + "\""))
  {
  }

  lemma ReadToggle(s: string, st: Scanner)
    requires |s| > 0 && s[0] == '"' && !(st.inQuotes && |s| > 1 && s[1] == '"')
    ensures Read(s, st) == Read(s[1..], st.(inQuotes := !st.inQuotes))
  {
  }

  lemma ReadComma(s: string, st: Scanner)
    requires |s| > 0 && s[0] == ',' && !st.inQuotes
    ensures Read(s, st) == Read(s[1..], st.(row := st.row + [st.field], field := ""))
  {
  }

  lemma ReadNewline(s: string, st: Scanner)
    requires |s| > 0 && s[0] == '\n' && !st.inQuotes
    ensures Read(s, st) == Read(s[1..], EndRow(st))
  {
  }

  lemma ReadOther(s: string, st: Scanner)
    requires |s| > 0 && s[0] != '"' && (st.inQuotes || (s[0] != ',' && s[0] != '\n'))
    ensures Read(s, st) == Read(s[1..], st.(field := st.field + [s[0]]))
  {
  }

  /** Inside quotes, an escaped field and its closing quote add exactly the
      field's text and leave quote mode. */
  lemma {:induction false} ReadEscaped(f: string, rest: string, st: Scanner)
    requires st.inQuotes
    requires |rest| == 0 || rest[0] != '"'
    ensures Read(Escape(f) + "\"" + rest, st) == Read(rest, st.(field := st.field + f, inQuotes := false))
    decreases |f|
  {
    var s := Escape(f) + "\"" + rest;
    if |f| == 0 {
      assert s == "\"" + rest;
      ReadToggle(s, st);
      assert s[1..] == rest;
      assert st.field + f == st.field;
    } else if f[0] == '"' {
      assert s == "\"\"" + (Escape(f[1..]) + "\"" + rest);
      ReadEscapedQuote(s, st);
      assert s[2..] == Escape(f[1..]) + "\"" + rest;
      ReadEscaped(f[1..], rest, st.(field := st.field + "\""));
      assert st.field + "\"" + f[1..] == st.field + f;
    } else {
      assert s == [f[0]] + (Escape(f[1..]) + "\"" + rest);
      ReadOther(s, st);
      assert s[1..] == Escape(f[1..]) + "\"" + rest;
      ReadEscaped(f[1..], rest, st.(field := st.field + [f[0]]));
      assert st.field + [f[0]] + f[1..] == st.field + f;
    }
  }

  /** Outside quotes, a quoted field adds exactly the field's text. */
  lemma ReadQuoted(f: string, rest: string, st: Scanner)
    requires !st.inQuotes
    requires |rest| == 0 || rest[0] != '"'
    ensures Read(Quote(f) + rest, st) == Read(rest, st.(field := st.field + f))
  {
    var s := Quote(f) + rest;
    assert s == "\"" + (Escape(f) + "\"" + rest);
    ReadToggle(s, st);
    assert s[1..] == Escape(f) + "\"" + rest;
    ReadEscaped(f, rest, st.(inQuotes := true));
  }

  /** A quoted field and the `,` after it push exactly that field. */
  lemma ReadField(f: string, more: string, st: Scanner)
    requires !st.inQuotes && st.field == ""
    ensures Read(Quote(f) + "," + more, st) == Read(more, st.(row := st.row + [f]))
  {
    var tail := "," + more;
    assert Quote(f) + "," + more == Quote(f) + tail;
    ReadQuoted(f, tail, st);
    var mid := st.(field := st.field + f);
    ReadComma(tail, mid);
    assert tail[1..] == more;
    assert st.field + f == f;
  }

  /** The state an encoded row leaves: all its fields but the last pushed, the last one pending. */
  function Pending(st: Scanner, r: Row): Scanner
    requires |r| >= 1
  {
    st.(row := st.row + r[..|r| - 1], field := r[|r| - 1])
  }

  /** An encoded row leaves every field but the last pushed, and the last one pending. */
  lemma {:induction false} ReadRow(r: Row, rest: string, st: Scanner)
    requires |r| >= 1 && !st.inQuotes && st.field == ""
    requires |rest| == 0 || rest[0] == '\n'
    ensures Read(EncodeRow(r) + rest, st) == Read(rest, Pending(st, r))
    decreases |r|
  {
    if |r| == 1 {
      ReadQuoted(r[0], rest, st);
      assert st.row + r[..0] == st.row;
      assert st.field + r[0] == r[0];
    } else {
      assert EncodeRow(r) + rest == Quote(r[0]) + "," + (EncodeRow(r[1..]) + rest);
      ReadField(r[0], EncodeRow(r[1..]) + rest, st);
      ReadRow(r[1..], rest, st.(row := st.row + [r[0]]));
      assert st.row + [r[0]] + r[1..][..|r[1..]| - 1] == st.row + r[..|r| - 1];
    }
  }

  /** An encoded row of two or more fields and the `\n` after it finish exactly that row. */
  lemma ReadLine(r: Row, more: string, st: Scanner)
    requires |r| >= 2 && !st.inQuotes && st.row == [] && st.field == ""
    ensures Read(EncodeRow(r) + "\n" + more, st) == Read(more, Scanner(st.rows + [r], [], "", false))
  {
    var tail := "\n" + more;
    assert EncodeRow(r) + "\n" + more == EncodeRow(r) + tail;
    ReadRow(r, tail, st);
    ReadNewline(tail, Pending(st, r));
    assert tail[1..] == more;
    EndPending(st, r);
  }

  lemma EndPending(st: Scanner, r: Row)
    requires |r| >= 2 && !st.inQuotes && st.row == []
    ensures EndRow(Pending(st, r)) == Scanner(st.rows + [r], [], "", false)
  {
    assert st.row + r[..|r| - 1] + [r[|r| - 1]] == r;
  }

  /** The state after a run of encoded rows: every row but the last finished, the last one pending. */
  function AfterRows(done: seq<Row>, rows: seq<Row>): Scanner
    requires |rows| >= 1 && |rows[|rows| - 1]| >= 1
  {
    Pending(Scanner(done + rows[..|rows| - 1], [], "", false), rows[|rows| - 1])
  }

  lemma AfterMoreRows(done: seq<Row>, rows: seq<Row>)
    requires |rows| >= 2 && |rows[|rows| - 1]| >= 1
    ensures AfterRows(done + [rows[0]], rows[1..]) == AfterRows(done, rows)
  {
    assert rows[1..][|rows| - 2] == rows[|rows| - 1];
    assert done + [rows[0]] + rows[1..][..|rows| - 2] == done + rows[..|rows| - 1];
  }

  /** Encoded rows, read from a row boundary, end with all rows but the last
      finished and the last one pending. */
  lemma {:induction false} ReadRows(rows: seq<Row>, rest: string, st: Scanner)
    requires |rows| >= 1 && forall i :: 0 <= i < |rows| ==> |rows[i]| >= 2
    requires !st.inQuotes && st.row == [] && st.field == ""
    requires |rest| == 0 || rest[0] == '\n'
    ensures Read(Encode(rows) + rest, st) == Read(rest, AfterRows(st.rows, rows))
    decreases |rows|
  {
    if |rows| == 1 {
      ReadRow(rows[0], rest, st);
      assert st.rows + rows[..0] == st.rows;
      assert Pending(st, rows[0]) == AfterRows(st.rows, rows);
    } else {
      assert Encode(rows) + rest == EncodeRow(rows[0]) + "\n" + (Encode(rows[1..]) + rest);
      ReadLine(rows[0], Encode(rows[1..]) + rest, st);
      ReadRows(rows[1..], rest, Scanner(st.rows + [rows[0]], [], "", false));
      AfterMoreRows(st.rows, rows);
    }
  }

  lemma {:induction false} EncodeHasNoCR(rows: seq<Row>)
    requires forall i :: 0 <= i < |rows| ==> |rows[i]| >= 1 && CleanRow(rows[i])
    ensures '\r' !in Encode(rows)
    decreases |rows|
  {
    if |rows| > 0 {
      EncodeRowHasNoCR(rows[0]);
      EncodeHasNoCR(rows[1..]);
    }
  }

  lemma {:induction false} EncodeRowHasNoCR(r: Row)
    requires |r| >= 1 && CleanRow(r)
    ensures '\r' !in EncodeRow(r)
    decreases |r|
  {
    assert '\r' !in r[0];
    if |r| > 1 {
      EncodeRowHasNoCR(r[1..]);
    }
  }

  /** The state after all rows, spelled out. */
  lemma AfterAllRows(rows: seq<Row>)
    requires |rows| >= 1 && |rows[|rows| - 1]| >= 1
    ensures var last := rows[|rows| - 1];
      AfterRows([], rows) == Scanner(rows[..|rows| - 1], last[..|last| - 1], last[|last| - 1], false)
  {
    var last := rows[|rows| - 1];
    assert [] + rows[..|rows| - 1] == rows[..|rows| - 1];
    assert [] + last[..|last| - 1] == last[..|last| - 1];
  }

  /** Finishing, or ending the line of, the state after all rows gives back the rows. */
  lemma FinishAfterRows(rows: seq<Row>)
    requires |rows| >= 1 && forall i :: 0 <= i < |rows| ==> |rows[i]| >= 2
    ensures Finish(AfterRows([], rows)) == rows
    ensures EndRow(AfterRows([], rows)) == Scanner(rows, [], "", false)
  {
    var last := rows[|rows| - 1];
    AfterAllRows(rows);
    var st := AfterRows([], rows);
    assert st.row + [st.field] == last by {
      assert last[..|last| - 1] + [last[|last| - 1]] == last;
    }
    assert |st.row| > 0;
    assert rows[..|rows| - 1] + [last] == rows;
  }

  lemma ParseEncoded(rows: seq<Row>)
    requires forall i :: 0 <= i < |rows| ==> |rows[i]| >= 2 && CleanRow(rows[i])
    ensures Parse(Encode(rows)) == rows
  {
    EncodeHasNoCR(rows);
    if |rows| > 0 {
      ReadRows(rows, "", Start);
      assert Encode(rows) + "" == Encode(rows);
      FinishAfterRows(rows);
    }
  }

  lemma ParseEncodedLine(rows: seq<Row>)
    requires forall i :: 0 <= i < |rows| ==> |rows[i]| >= 2 && CleanRow(rows[i])
    ensures Parse(Encode(rows) + "\n") == rows
  {
    EncodeHasNoCR(rows);
    assert '\r' !in Encode(rows) + "\n";
    if |rows| > 0 {
      ReadRows(rows, "\n", Start);
      ReadNewline("\n", AfterRows([], rows));
      assert "\n"[1..] == "";
      FinishAfterRows(rows);
    } else {
      assert Encode(rows) + "\n" == "\n";
    }
  }

  /** Rows of at least two `\r`-free fields, written quoted with `"` doubled,
      read back as the same rows: embedded commas, quotes and newlines
      included, with or without a newline after the last row. */
  lemma RoundTrip(rows: seq<Row>)
    requires forall i :: 0 <= i < |rows| ==> |rows[i]| >= 2 && CleanRow(rows[i])
    ensures Parse(Encode(rows)) == rows
    ensures Parse(Encode(rows) + "\n") == rows
  {
    ParseEncoded(rows);
    ParseEncodedLine(rows);
  }
}

=== FILE: levenshtein.dfy ===
/**
 * Unit-cost edit distance (`levenshtein` in src/app/api/match-account/route.ts):
 * the classic recursive definition, its basic laws, and the source's
 * single-row dynamic program proved to compute it.
 */
module Levenshtein {
  import opened Text

  function Max(x: nat, y: nat): nat {
    if x >= y then x else y
  }

  /** The cheapest of deleting, inserting and substituting (free when the
      characters agree), given the distances of the three shorter prefix pairs. */
  function Step(up: nat, left: nat, diag: nat, same: bool): nat {
    Min(Min(up + 1, left + 1), diag + (if same then 0 else 1))
  }

  /** The classic recursive edit distance between the prefixes `a[..i]` and
      `b[..j]`: the fewest single-character insertions, deletions and
      substitutions turning one into the other. */
  function Lev(a: string, b: string, i: nat, j: nat): nat
    requires i <= |a| && j <= |b|
    decreases i + j
  {
    if i == 0 then j
    else if j == 0 then i
    else Step(Lev(a, b, i - 1, j), Lev(a, b, i, j - 1), Lev(a, b, i - 1, j - 1), a[i - 1] == b[j - 1])
  }

  /** `Lev` as the laws below state it. Stating them through this
      non-recursive name keeps each proof to one unfolding of the recursion. */
  function Distance(a: string, b: string, i: nat, j: nat): nat
    requires i <= |a| && j <= |b|
  {
    Lev(a, b, i, j)
  }

  /** The edit distance between two whole strings. */
  function EditDistance(a: string, b: string): nat {
    Distance(a, b, |a|, |b|)
  }

  /** At least the difference of the lengths. */
  lemma {:induction false} LevLower(a: string, b: string, i: nat, j: nat)
    requires i <= |a| && j <= |b|
    ensures Distance(a, b, i, j) >= i - j && Distance(a, b, i, j) >= j - i
    decreases i + j
  {
    if i > 0 && j > 0 {
      LevLower(a, b, i - 1, j);
      LevLower(a, b, i, j - 1);
      LevLower(a, b, i - 1, j - 1);
    }
  }

  /** At most the longer length. */
  lemma {:induction false} LevUpper(a: string, b: string, i: nat, j: nat)
    requires i <= |a| && j <= |b|
    ensures Distance(a, b, i, j) <= Max(i, j)
    decreases i + j
  {
    if i > 0 && j > 0 {
      LevUpper(a, b, i - 1, j - 1);
    }
  }

  /** Distance zero exactly for equal prefixes. */
  lemma {:induction false} LevZeroIff(a: string, b: string, i: nat, j: nat)
    requires i <= |a| && j <= |b|
    ensures Distance(a, b, i, j) == 0 <==> i == j && a[..i] == b[..j]
    decreases i + j
  {
    if i > 0 && j > 0 {
      LevZeroIff(a, b, i - 1, j - 1);
      assert a[..i] == a[..i - 1] + [a[i - 1]];
      assert b[..j] == b[..j - 1] + [b[j - 1]];
      if i == j && a[..i] == b[..j] {
        assert a[..i - 1] == a[..i][..i - 1] && b[..j - 1] == b[..j][..j - 1];
        assert a[i - 1] == a[..i][i - 1] && b[j - 1] == b[..j][j - 1];
      }
    } else if i > 0 {
      assert a[..i][0] == a[0];
    } else if j > 0 {
      assert b[..j][0] == b[0];
    }
  }

  /** Swapping the two strings does not change the distance. */
  lemma {:induction false} LevSymmetric(a: string, b: string, i: nat, j: nat)
    requires i <= |a| && j <= |b|
    ensures Distance(a, b, i, j) == Distance(b, a, j, i)
    decreases i + j
  {
    if i > 0 && j > 0 {
      LevSymmetric(a, b, i - 1, j);
      LevSymmetric(a, b, i, j - 1);
      LevSymmetric(a, b, i - 1, j - 1);
      var up, left, diag := Distance(a, b, i - 1, j), Distance(a, b, i, j - 1), Distance(a, b, i - 1, j - 1);
      var cost := if a[i - 1] == b[j - 1] then 0 else 1;
      assert Distance(a, b, i, j) == Min(Min(up + 1, left + 1), diag + cost);
      assert Distance(b, a, j, i) == Min(Min(left + 1, up + 1), diag + cost);
    }
  }

  /** Dropping the last character of the second prefix costs at most one. */
  lemma {:induction false} LevDropSecond(a: string, b: string, i: nat, j: nat)
    requires i <= |a| && 1 <= j <= |b|
    ensures Distance(a, b, i, j - 1) <= Distance(a, b, i, j) + 1
    decreases i + j
  {
    if i > 0 {
      if j == 1 {
        LevLower(a, b, i, j);
      } else {
        LevDropSecond(a, b, i - 1, j);
      }
    }
  }

  /** Dropping the last character of the first prefix costs at most one. */
  lemma {:induction false} LevDropFirst(a: string, b: string, i: nat, j: nat)
    requires 1 <= i <= |a| && j <= |b|
    ensures Distance(a, b, i - 1, j) <= Distance(a, b, i, j) + 1
    decreases i + j
  {
    if j > 0 {
      if i == 1 {
        LevLower(a, b, i, j);
      } else {
        LevDropFirst(a, b, i, j - 1);
      }
    }
  }

  /** When the last characters agree the diagonal alone decides: the shortcut
      the single-row program takes on equal characters. */
  lemma LevMatch(a: string, b: string, i: nat, j: nat)
    requires 1 <= i <= |a| && 1 <= j <= |b| && a[i - 1] == b[j - 1]
    ensures Distance(a, b, i, j) == Distance(a, b, i - 1, j - 1)
  {
    LevDropSecond(a, b, i - 1, j);
    LevDropFirst(a, b, i, j - 1);
  }

  /** One step of the single-row program: the diagonal on equal characters,
      otherwise one more than the cheapest neighbour. */
  lemma LevStep(a: string, b: string, i: nat, j: nat)
    requires 1 <= i <= |a| && 1 <= j <= |b|
    ensures Distance(a, b, i, j) ==
      if a[i - 1] == b[j - 1] then Distance(a, b, i - 1, j - 1)
      else Min(Min(Distance(a, b, i - 1, j - 1), Distance(a, b, i, j - 1)), Distance(a, b, i - 1, j)) + 1
  {
    if a[i - 1] == b[j - 1] {
      LevMatch(a, b, i, j);
    }
  }

  /** Inserting one character into `b` at position `p` gives `a`: then the
      suffixes after the insertion stay within distance one. */
  lemma {:induction false} LevAfterInsertion(a: string, b: string, p: nat, k: nat)
    requires |a| == |b| + 1 && p + k <= |b|
    requires a[..p] == b[..p] && a[p + 1..] == b[p..]
    ensures Distance(a, b, p + 1 + k, p + k) <= 1
    decreases k
  {
    if k == 0 {
      LevZeroIff(a, b, p, p);
    } else {
      LevAfterInsertion(a, b, p, k - 1);
      assert a[p + k] == a[p + 1..][k - 1] == b[p..][k - 1] == b[p + k - 1];
    }
  }

  /** Strings that differ by one inserted character are at distance exactly one. */
  lemma OneInsertion(a: string, b: string, p: nat)
    requires |a| == |b| + 1 && p <= |b|
    requires a[..p] == b[..p] && a[p + 1..] == b[p..]
    ensures EditDistance(a, b) == 1
  {
    LevAfterInsertion(a, b, p, |b| - p);
    LevLower(a, b, |a|, |b|);
  }

  /** The distance between whole strings: at least the length difference, at
      most the longer length, zero exactly for equal strings, and symmetric. */
  lemma EditDistanceFacts(a: string, b: string)
    ensures EditDistance(a, b) >= |a| - |b| && EditDistance(a, b) >= |b| - |a|
    ensures EditDistance(a, b) <= Max(|a|, |b|)
    ensures EditDistance(a, b) == 0 <==> a == b
    ensures EditDistance(a, b) == EditDistance(b, a)
  {
    LevLower(a, b, |a|, |b|);
    LevUpper(a, b, |a|, |b|);
    LevZeroIff(a, b, |a|, |b|);
    assert a[..|a|] == a && b[..|b|] == b;
    LevSymmetric(a, b, |a|, |b|);
  }

  /**
   * The source's single-row dynamic program, step for step: `costs` grows to
   * `|s2| + 1` entries on the first pass and is then rewritten in place, with
   * `lastValue` carrying the entry to the left. On equal characters it takes
   * the diagonal unconditionally.
   */
  method Levenshtein(s1: string, s2: string) returns (d: nat)
    ensures d == EditDistance(s1, s2)
  {
    var costs: seq<nat> := [];
    var i := 0;
    while i <= |s1|
      invariant 0 <= i <= |s1| + 1
      invariant i == 0 ==> costs == []
      invariant i > 0 ==> |costs| == |s2| + 1
      invariant i > 0 ==> forall k :: 0 <= k <= |s2| ==> costs[k] == Distance(s1, s2, i - 1, k)
    {
      var lastValue: nat := i;
      var j := 0;
      while j <= |s2|
        invariant 0 <= j <= |s2| + 1
        invariant i == 0 ==> |costs| == j && forall k :: 0 <= k < j ==> costs[k] == k
        invariant i > 0 ==> |costs| == |s2| + 1
        invariant i > 0 ==> lastValue == Distance(s1, s2, i, if j == 0 then 0 else j - 1)
        invariant i > 0 ==> forall k :: 0 <= k < j - 1 ==> costs[k] == Distance(s1, s2, i, k)
        invariant i > 0 ==> forall k :: 0 <= k <= |s2| && j - 1 <= k ==> costs[k] == Distance(s1, s2, i - 1, k)
      {
        if i == 0 {
          costs := costs + [j];
        } else if j > 0 {
          LevStep(s1, s2, i, j);
          var newValue := costs[j - 1];
          if s1[i - 1] != s2[j - 1] {
            newValue := Min(Min(newValue, lastValue), costs[j]) + 1;
          }
          costs := costs[j - 1 := lastValue];
          lastValue := newValue;
        }
        j := j + 1;
      }
      if i > 0 {
        costs := costs[|s2| := lastValue];
      }
      i := i + 1;
    }
    d := costs[|s2|];
  }
}

=== FILE: match_account.dfy ===
/**
 * The signup-to-panel account matcher (src/app/api/match-account/route.ts):
 * name and phone normalisation, the name similarity score, the mapping of
 * CSV rows to customers, and the three-way match decision.
 */
module MatchAccount {
  import opened Wrappers
  import opened Text
  import opened Levenshtein
  import opened Seqs
  import Csv

  /** One row of the panel's customer export. */
  datatype Customer = Customer(panelId: string, username: string, expiry: string, phone: string, notes: string)

  // ----- Normalisation -----

  /** `normalizePhone`: the digits of the phone number, in their original order. */
  function NormalizePhone(phone: string): (r: string)
    ensures AllDigits(r)
    ensures forall c :: IsDigit(c) ==> multiset(r)[c] == multiset(phone)[c]
  {
    DigitsCount(phone);
    Digits(phone)
  }

  /** A normalised phone is its own normalisation, and normalising keeps the
      order of the digits: it is taken piece by piece. */
  lemma NormalizePhoneFacts(a: string, b: string)
    ensures NormalizePhone(NormalizePhone(a)) == NormalizePhone(a)
    ensures NormalizePhone(a + b) == NormalizePhone(a) + NormalizePhone(b)
    ensures forall c :: c in NormalizePhone(a) <==> c in a && IsDigit(c)
  {
    DigitsConcat(a, b);
    forall c
      ensures c in NormalizePhone(a) <==> c in a && IsDigit(c)
    {
      assert c in NormalizePhone(a) <==> multiset(NormalizePhone(a))[c] > 0;
      assert c in a <==> multiset(a)[c] > 0;
    }
  }

  /** Whether `s` ends in four digits, the regular expression `\d{4}$`. */
  predicate EndsInFourDigits(s: string) {
    |s| >= 4 && AllDigits(s[|s| - 4..])
  }

  /** `normalizeName`: four trailing digits dropped, then lower-cased and trimmed. */
  function NormalizeName(name: string): (r: string)
    ensures |r| <= |name|
    ensures forall i :: 0 <= i < |r| ==> !('A' <= r[i] <= 'Z')
    ensures |r| > 0 ==> !IsSpace(r[0]) && !IsSpace(r[|r| - 1])
  {
    var stripped := if EndsInFourDigits(name) then name[..|name| - 4] else name;
    var lower := Lower(stripped);
    var r := Trim(lower);
    forall i | 0 <= i < |r|
      ensures !('A' <= r[i] <= 'Z')
    {
      assert r[i] in r;
      assert r[i] in lower;
    }
    r
  }

  /** A name that is already lower-case, unpadded and without a four-digit
      ending normalises to itself. */
  lemma NormalizeNameOfNormal(name: string)
    requires forall i :: 0 <= i < |name| ==> !('A' <= name[i] <= 'Z')
    requires |name| > 0 ==> !IsSpace(name[0]) && !IsSpace(name[|name| - 1])
    requires !EndsInFourDigits(name)
    ensures NormalizeName(name) == name
  {
    assert Lower(name) == name;
    TrimOfTrimmed(name);
  }

  /** Exactly four trailing digits are dropped, whatever precedes them,
      before the rest is lower-cased and trimmed. */
  lemma NormalizeNameStrips(s: string, d: string)
    requires |d| == 4 && AllDigits(d)
    ensures NormalizeName(s + d) == Trim(Lower(s))
  {
    var n := s + d;
    assert n[|n| - 4..] == d;
    assert n[..|n| - 4] == s;
  }

  /** A name that does not end in four digits is only lower-cased and trimmed. */
  lemma NormalizeNameKeeps(s: string)
    requires !EndsInFourDigits(s)
    ensures NormalizeName(s) == Trim(Lower(s))
  {
  }

  /** Of a longer run of trailing digits only the last four go. */
  lemma NormalizeNameLongRun()
    ensures NormalizeName("john12345") == "john1"
  {
    NormalizeNameStrips("john1", "2345");
    assert "john1" + "2345" == "john12345";
    assert Lower("john1") == "john1";
    TrimOfTrimmed("john1");
  }

  lemma NormalizeNameDropsYear()
    ensures NormalizeName("johnsmith1234") == "johnsmith"
  {
    var s := "johnsmith1234";
    assert EndsInFourDigits(s);
    assert s[..|s| - 4] == "johnsmith";
    assert Lower("johnsmith") == "johnsmith";
    TrimOfTrimmed("johnsmith");
  }

  lemma NormalizeNameLowers()
    ensures NormalizeName("John Smith") == "john smith"
  {
    var s := "John Smith";
    assert !EndsInFourDigits(s) by {
      assert !IsDigit(s[6]);
      assert s[|s| - 4..][0] == s[6];
    }
    assert Lower(s) == "john smith";
    TrimOfTrimmed("john smith");
  }

  // ----- Similarity -----

  /** The share of the longer string left intact by the edits. */
  function Ratio(length: nat, distance: nat): real
    requires length > 0
  {
    (length - distance) as real / length as real
  }

  /** A share of at most the whole length lies in [0, 1] and is 1 exactly when nothing was edited. */
  lemma RatioFacts(length: nat, distance: nat)
    requires 0 < length && distance <= length
    ensures 0.0 <= Ratio(length, distance) <= 1.0
    ensures Ratio(length, distance) == 1.0 <==> distance == 0
  {
    var x := (length - distance) as real;
    var y := length as real;
    assert 0.0 <= x <= y && y > 0.0;
    assert x / y <= 1.0 by {
      assert x / y <= y / y;
    }
    assert Ratio(length, distance) == x / y;
    if x / y == 1.0 {
      assert x == (x / y) * y;
    }
    if distance == 0 {
      assert x == y;
      DivSelf(y);
    }
  }

  lemma DivSelf(y: real)
    requires y > 0.0
    ensures y / y == 1.0
  {
  }

  /** The score of two already normalised names. */
  function NameSimilarity(n1: string, n2: string): real {
    if |n1| == 0 || |n2| == 0 then 0.0
    else
      var longer := if |n1| > |n2| then n1 else n2;
      var shorter := if |n1| > |n2| then n2 else n1;
      if |longer| == 0 then 1.0
      else Ratio(|longer|, EditDistance(longer, shorter))
  }

  /** `similarity`: 0 when either normalised name is empty, otherwise the
      edit distance between them as a share of the longer one. */
  function Similarity(s1: string, s2: string): real {
    NameSimilarity(NormalizeName(s1), NormalizeName(s2))
  }

  lemma NameSimilarityRange(n1: string, n2: string)
    ensures 0.0 <= NameSimilarity(n1, n2) <= 1.0
    ensures |n1| == 0 || |n2| == 0 ==> NameSimilarity(n1, n2) == 0.0
    ensures NameSimilarity(n1, n2) == 1.0 <==> |n1| > 0 && n1 == n2
    ensures NameSimilarity(n1, n2) == NameSimilarity(n2, n1)
  {
    if |n1| > 0 && |n2| > 0 {
      var longer := if |n1| > |n2| then n1 else n2;
      var shorter := if |n1| > |n2| then n2 else n1;
      EditDistanceFacts(longer, shorter);
      RatioFacts(|longer|, EditDistance(longer, shorter));
    }
  }

  /** A score lies in [0, 1]; it is 0 when either name normalises to nothing,
      exactly 1 when both normalise to the same non-empty name, and it does
      not depend on the order of the names. */
  lemma SimilarityRange(s1: string, s2: string)
    ensures 0.0 <= Similarity(s1, s2) <= 1.0
    ensures |NormalizeName(s1)| == 0 || |NormalizeName(s2)| == 0 ==> Similarity(s1, s2) == 0.0
    ensures Similarity(s1, s2) == 1.0 <==> |NormalizeName(s1)| > 0 && NormalizeName(s1) == NormalizeName(s2)
    ensures Similarity(s1, s2) == Similarity(s2, s1)
  {
    NameSimilarityRange(NormalizeName(s1), NormalizeName(s2));
  }

  /** One missing space costs one edit in ten. */
  lemma NameSimilarityExample()
    ensures NameSimilarity("john smith", "johnsmith") == 9.0 / 10.0
  {
    var a := "john smith";
    var b := "johnsmith";
    assert a[..4] == b[..4] && a[5..] == b[4..];
    OneInsertion(a, b, 4);
  }

  /** A typed name against a panel username with a four-digit suffix and no space. */
  lemma SimilarityExample()
    ensures Similarity("John Smith", "johnsmith1234") == 9.0 / 10.0
  {
    NormalizeNameLowers();
    NormalizeNameDropsYear();
    NameSimilarityExample();
  }

  // ----- Loading customers -----

  /** `row[k] || ''`: the k-th field, or empty when the row is shorter. */
  function Column(row: Csv.Row, k: nat): string {
    if k < |row| then row[k] else ""
  }

  function ToCustomer(row: Csv.Row): Customer {
    Customer(Column(row, 0), Column(row, 1), Column(row, 2), NormalizePhone(Column(row, 3)), Column(row, 4))
  }

  /**
   * `loadCustomers` on the export's text, `None` when it cannot be read: an
   * unreadable file gives no customers; otherwise the first (header) row is
   * dropped and every later row becomes one customer, in order, with its
   * panel id and username taken from the first two fields (every parsed row
   * has them), its expiry and notes from the third and fifth or empty when
   * the row is shorter, and its phone normalised.
   */
  function LoadCustomers(content: Option<string>): (customers: seq<Customer>)
    ensures content.None? ==> customers == []
    ensures content.Some? ==>
      var rows := Csv.Parse(content.value);
      && |customers| == (if |rows| == 0 then 0 else |rows| - 1)
      && forall i :: 0 <= i < |customers| ==>
           && customers[i].panelId == rows[i + 1][0]
           && customers[i].username == rows[i + 1][1]
           && customers[i].expiry == Column(rows[i + 1], 2)
           && customers[i].phone == NormalizePhone(Column(rows[i + 1], 3))
           && customers[i].notes == Column(rows[i + 1], 4)
  {
    match content
    case None => []
    case Some(text) =>
      var rows := Csv.Parse(text);
      if |rows| == 0 then [] else seq(|rows| - 1, i requires 0 <= i < |rows| - 1 => ToCustomer(rows[i + 1]))
  }

  /** Text that parses as a header and rows loads as one customer per row. */
  lemma LoadParsed(text: string, header: Csv.Row, rows: seq<Csv.Row>)
    requires Csv.Parse(text) == [header] + rows
    ensures |LoadCustomers(Some(text))| == |rows|
    ensures forall i :: 0 <= i < |rows| ==> LoadCustomers(Some(text))[i] == ToCustomer(rows[i])
  {
    var all := [header] + rows;
    assert forall i :: 0 <= i < |rows| ==> all[i + 1] == rows[i];
  }

  lemma HeaderAndRows(header: Csv.Row, rows: seq<Csv.Row>)
    requires |header| >= 2 && Csv.CleanRow(header)
    requires forall i :: 0 <= i < |rows| ==> |rows[i]| >= 2 && Csv.CleanRow(rows[i])
    ensures var all := [header] + rows;
      forall i :: 0 <= i < |all| ==> |all[i]| >= 2 && Csv.CleanRow(all[i])
  {
    var all := [header] + rows;
    forall i | 0 <= i < |all| ensures |all[i]| >= 2 && Csv.CleanRow(all[i]) {
      if i > 0 {
        assert all[i] == rows[i - 1];
      }
    }
  }

  /** An export written as a header and customer rows loads as exactly those
      customers: the reader and the row mapping together lose nothing. */
  lemma LoadWritten(header: Csv.Row, rows: seq<Csv.Row>)
    requires |header| >= 2 && Csv.CleanRow(header)
    requires forall i :: 0 <= i < |rows| ==> |rows[i]| >= 2 && Csv.CleanRow(rows[i])
    ensures var customers := LoadCustomers(Some(Csv.Encode([header] + rows)));
      && |customers| == |rows|
      && forall i :: 0 <= i < |rows| ==>
           customers[i] == Customer(rows[i][0], rows[i][1], Column(rows[i], 2),
                                    NormalizePhone(Column(rows[i], 3)), Column(rows[i], 4))
  {
    HeaderAndRows(header, rows);
    Csv.RoundTrip([header] + rows);
    LoadParsed(Csv.Encode([header] + rows), header, rows);
  }

  // ----- Matching -----

  datatype Status = AutoLink | ReviewRequired | NoMatch

  /** What `matchCustomer` returns: a status, a confidence and, for a
      link or a review, the customer it points at. */
  datatype MatchResult = MatchResult(status: Status, confidence: real, customer: Option<Customer>)

  /** The score at or above which a match is linked (or, by name alone, reviewed). */
  const AutoLinkScore: real := 0.85
  /** The score at or above which a phone match is sent for review. */
  const ReviewScore: real := 0.50
  /** The fewest digits a phone number needs before it is matched at all. */
  const MinPhoneDigits: nat := 10

  /** A customer matches by phone when its stored phone is the normalised
      input and that input has at least ten digits. */
  predicate PhoneMatch(c: Customer, clean: string) {
    c.phone == clean && |clean| >= MinPhoneDigits
  }

  function PhoneTest(clean: string): Customer -> bool {
    c => PhoneMatch(c, clean)
  }

  function Score(name: string, c: Customer): real {
    Similarity(name, c.username)
  }

  /** A customer matches by name alone when its username scores 0.85 or more. */
  function NameTest(name: string): Customer -> bool {
    c => Score(name, c) >= AutoLinkScore
  }

  /** The scores of `cs` against `name`, in order. */
  function Scores(name: string, cs: seq<Customer>): (scores: seq<real>)
    ensures |scores| == |cs|
    ensures forall i :: 0 <= i < |cs| ==> scores[i] == Score(name, cs[i])
  {
    seq(|cs|, i requires 0 <= i < |cs| => Score(name, cs[i]))
  }

  /**
   * The loop over the phone matches: the best score starts at 0 and is
   * replaced only by a strictly higher one, so the winner is the first of
   * the highest scores, and there is none when no score is above 0.
   */
  function Best(scores: seq<real>): (b: Option<nat>)
    ensures b.None? <==> forall i :: 0 <= i < |scores| ==> scores[i] <= 0.0
    ensures b.Some? ==>
      && b.value < |scores|
      && scores[b.value] > 0.0
      && (forall i :: 0 <= i < |scores| ==> scores[i] <= scores[b.value])
      && (forall i :: 0 <= i < b.value ==> scores[i] < scores[b.value])
    decreases |scores|
  {
    if |scores| == 0 then None
    else
      var b := Best(scores[..|scores| - 1]);
      var top := if b.Some? then scores[b.value] else 0.0;
      if scores[|scores| - 1] > top then Some(|scores| - 1) else b
  }

  /** The customers that match by phone, in the export's order. */
  function PhoneMatches(customers: seq<Customer>, clean: string): seq<Customer> {
    Filter(customers, PhoneTest(clean))
  }

  /** The customers whose name alone scores 0.85 or more, in the export's order. */
  function NameMatches(name: string, customers: seq<Customer>): seq<Customer> {
    Filter(customers, NameTest(name))
  }

  /** The phone branch, given the phone matches and their scores: the best
      score decides between a link, a review and no match. */
  function Rank(matches: seq<Customer>, scores: seq<real>): (r: MatchResult)
    requires |scores| == |matches|
    ensures r.customer.Some? <==> r.status != NoMatch
    ensures r.customer.Some? ==> r.customer.value in matches
  {
    match Best(scores)
    case None => MatchResult(NoMatch, 0.0, None)
    case Some(k) =>
      if scores[k] >= AutoLinkScore then MatchResult(AutoLink, scores[k], Some(matches[k]))
      else if scores[k] >= ReviewScore then MatchResult(ReviewRequired, scores[k], Some(matches[k]))
      else MatchResult(NoMatch, scores[k], None)
  }

  /**
   * `matchCustomer`. Customers are first matched by phone. Without a phone
   * match, a single customer whose name scores 0.85 or more is sent for
   * review with confidence 0.85, and anything else is no match. With phone
   * matches, the best-scoring one is linked at 0.85 or more, reviewed at
   * 0.50 or more, and otherwise no match carrying its score.
   */
  function MatchCustomer(name: string, phone: string, email: string, customers: seq<Customer>): (r: MatchResult)
    ensures r.status == AutoLink ==>
      && |NormalizePhone(phone)| >= MinPhoneDigits
      && r.customer.Some? && r.customer.value in customers
      && r.customer.value.phone == NormalizePhone(phone)
    ensures r.status == NoMatch ==> r.customer.None?
    ensures r.status != NoMatch ==> r.customer.Some? && r.customer.value in customers
  {
    var clean := NormalizePhone(phone);
    var matches := PhoneMatches(customers, clean);
    if |matches| == 0 then
      var named := NameMatches(name, customers);
      if |named| == 1 then
        assert named[0] in named;
        MatchResult(ReviewRequired, AutoLinkScore, Some(named[0]))
      else MatchResult(NoMatch, 0.0, None)
    else
      var r := Rank(matches, Scores(name, matches));
      assert r.customer.Some? ==> r.customer.value in customers && PhoneMatch(r.customer.value, clean) by {
        if r.customer.Some? {
          assert PhoneTest(clean)(r.customer.value);
        }
      }
      r
  }

  /** A phone number of fewer than ten digits is never linked automatically. */
  lemma ShortPhoneNeverLinks(name: string, phone: string, email: string, customers: seq<Customer>)
    requires |NormalizePhone(phone)| < MinPhoneDigits
    ensures MatchCustomer(name, phone, email, customers).status != AutoLink
  {
  }

  /** Without a phone match the result is a review at exactly 0.85 of the one
      customer whose name scores 0.85 or more, if there is exactly one, and
      otherwise no match with confidence 0. */
  lemma NameOnlyFallback(name: string, phone: string, email: string, customers: seq<Customer>)
    requires forall i :: 0 <= i < |customers| ==> !PhoneMatch(customers[i], NormalizePhone(phone))
    ensures var r := MatchCustomer(name, phone, email, customers);
      && r.status != AutoLink
      && (r.status == ReviewRequired <==> ExactlyOne(customers, NameTest(name)))
      && (r.status == ReviewRequired ==> r.confidence == AutoLinkScore && Score(name, r.customer.value) >= AutoLinkScore)
      && (r.status == NoMatch ==> r == MatchResult(NoMatch, 0.0, None))
  {
    FilterNone(customers, PhoneTest(NormalizePhone(phone)));
    FilterSingle(customers, NameTest(name));
    var named := NameMatches(name, customers);
    if |named| == 1 {
      assert named[0] in named;
    }
  }

  /**
   * The phone branch in terms of the scores alone: a link iff some score is
   * 0.85 or more, a review iff the best lies in [0.50, 0.85), no match iff
   * every score is below 0.50; the confidence is the best score, or 0 when
   * no score is above 0, and the customer returned is the first one reaching it.
   */
  lemma RankFacts(matches: seq<Customer>, scores: seq<real>)
    requires |scores| == |matches|
    ensures var r := Rank(matches, scores);
      && (r.status == AutoLink <==> exists k :: 0 <= k < |scores| && scores[k] >= AutoLinkScore)
      && (r.status == ReviewRequired <==>
            (exists k :: 0 <= k < |scores| && scores[k] >= ReviewScore)
            && forall k :: 0 <= k < |scores| ==> scores[k] < AutoLinkScore)
      && (r.status == NoMatch <==> forall k :: 0 <= k < |scores| ==> scores[k] < ReviewScore)
      && (forall k :: 0 <= k < |scores| ==> scores[k] <= r.confidence)
      && 0.0 <= r.confidence
      && (r.confidence == 0.0 || exists k :: 0 <= k < |scores| && scores[k] == r.confidence)
      && (r.customer.Some? ==>
            exists k :: 0 <= k < |matches| && r.customer.value == matches[k] && scores[k] == r.confidence
              && forall i :: 0 <= i < k ==> scores[i] < r.confidence)
  {
  }

  /** Some phone match of the export scores at least `bar`. */
  predicate SomePhoneMatchScores(name: string, clean: string, customers: seq<Customer>, bar: real) {
    exists i :: 0 <= i < |customers| && PhoneMatch(customers[i], clean) && Score(name, customers[i]) >= bar
  }

  /** The phone matches as a list hold exactly the export's phone matches. */
  lemma PhoneMatchesScore(name: string, clean: string, customers: seq<Customer>, bar: real)
    ensures var matches := PhoneMatches(customers, clean);
      SomePhoneMatchScores(name, clean, customers, bar) <==>
      exists k :: 0 <= k < |matches| && Score(name, matches[k]) >= bar
  {
    var matches := PhoneMatches(customers, clean);
    if SomePhoneMatchScores(name, clean, customers, bar) {
      var i :| 0 <= i < |customers| && PhoneMatch(customers[i], clean) && Score(name, customers[i]) >= bar;
      ListedPhoneMatch(clean, customers, i);
    } else {
      forall k | 0 <= k < |matches| ensures Score(name, matches[k]) < bar {
        assert matches[k] in matches;
      }
    }
  }

  lemma ListedPhoneMatch(clean: string, customers: seq<Customer>, i: nat)
    requires i < |customers| && PhoneMatch(customers[i], clean)
    ensures exists k :: 0 <= k < |PhoneMatches(customers, clean)| && PhoneMatches(customers, clean)[k] == customers[i]
  {
    assert customers[i] in PhoneMatches(customers, clean);
  }

  /** `RankFacts` for the scores of the phone matches against the typed name. */
  lemma RankByScore(name: string, matches: seq<Customer>)
    ensures var r := Rank(matches, Scores(name, matches));
      && (r.status == AutoLink <==> exists k :: 0 <= k < |matches| && Score(name, matches[k]) >= AutoLinkScore)
      && (r.status == ReviewRequired <==>
            (exists k :: 0 <= k < |matches| && Score(name, matches[k]) >= ReviewScore)
            && forall k :: 0 <= k < |matches| ==> Score(name, matches[k]) < AutoLinkScore)
      && (r.status == NoMatch <==> forall k :: 0 <= k < |matches| ==> Score(name, matches[k]) < ReviewScore)
      && (forall k :: 0 <= k < |matches| ==> Score(name, matches[k]) <= r.confidence)
      && 0.0 <= r.confidence
      && (r.confidence == 0.0 || exists k :: 0 <= k < |matches| && Score(name, matches[k]) == r.confidence)
      && (r.customer.Some? ==>
            exists k :: 0 <= k < |matches| && r.customer.value == matches[k]
              && Score(name, matches[k]) == r.confidence
              && forall i :: 0 <= i < k ==> Score(name, matches[i]) < r.confidence)
  {
    RankFacts(matches, Scores(name, matches));
  }

  /** With a phone match, `matchCustomer` ranks the phone matches. */
  lemma PhoneBranch(name: string, phone: string, email: string, customers: seq<Customer>)
    requires exists i :: 0 <= i < |customers| && PhoneMatch(customers[i], NormalizePhone(phone))
    ensures var matches := PhoneMatches(customers, NormalizePhone(phone));
      MatchCustomer(name, phone, email, customers) == Rank(matches, Scores(name, matches))
  {
    FilterNone(customers, PhoneTest(NormalizePhone(phone)));
  }

  /**
   * With at least one phone match, the decision follows the best score
   * among the phone matches: a link iff some phone match scores 0.85 or
   * more, a review iff the best lies in [0.50, 0.85), and otherwise no
   * match. The confidence is that best score (0 when none is above 0), and
   * the customer returned is a phone match that reaches it, with every
   * earlier phone match (in the export's order) scoring strictly less.
   */
  lemma PhoneDecision(name: string, phone: string, email: string, customers: seq<Customer>)
    requires exists i :: 0 <= i < |customers| && PhoneMatch(customers[i], NormalizePhone(phone))
    ensures var r := MatchCustomer(name, phone, email, customers);
      var clean := NormalizePhone(phone);
      var matches := PhoneMatches(customers, clean);
      && (r.status == AutoLink <==> SomePhoneMatchScores(name, clean, customers, AutoLinkScore))
      && (r.status == ReviewRequired <==>
            SomePhoneMatchScores(name, clean, customers, ReviewScore)
            && !SomePhoneMatchScores(name, clean, customers, AutoLinkScore))
      && (r.status == NoMatch <==> !SomePhoneMatchScores(name, clean, customers, ReviewScore))
      && (forall k :: 0 <= k < |matches| ==> Score(name, matches[k]) <= r.confidence)
      && 0.0 <= r.confidence
      && (r.confidence == 0.0 || exists k :: 0 <= k < |matches| && Score(name, matches[k]) == r.confidence)
      && (r.customer.Some? ==>
            exists k :: 0 <= k < |matches| && r.customer.value == matches[k]
              && Score(name, matches[k]) == r.confidence
              && forall i :: 0 <= i < k ==> Score(name, matches[i]) < r.confidence)
  {
    var clean := NormalizePhone(phone);
    var matches := PhoneMatches(customers, clean);
    PhoneBranch(name, phone, email, customers);
    RankByScore(name, matches);
    PhoneMatchesScore(name, clean, customers, AutoLinkScore);
    PhoneMatchesScore(name, clean, customers, ReviewScore);
  }
}

=== FILE: renew.dfy ===
/**
 * The renew page's card-entry formatters and its price table
 * (src/app/renew/page.tsx): `formatCardNumber`, `formatExpiry`, the CVV
 * filter and `PLANS`.
 */
module Renew {
  import opened Wrappers
  import opened Text

  // ----- formatCardNumber -----

  /** How many digits `/\d{4,16}/` can take greedily at position `i`: the
      length of the digit run there, at most `cap`. */
  function Run(s: string, i: nat, cap: nat): (n: nat)
    requires i <= |s|
    ensures n <= cap && i + n <= |s|
    ensures AllDigits(s[i..i + n])
    ensures n < cap && i + n < |s| ==> !IsDigit(s[i + n])
    decreases cap
  {
    if cap == 0 || i == |s| || !IsDigit(s[i]) then 0
    else
      var n := 1 + Run(s, i + 1, cap - 1);
      assert s[i..i + n] == [s[i]] + s[i + 1..i + n];
      n
  }

  /** The first element of `s.match(/\d{4,16}/g)`: the leftmost position at or
      after `i` with at least four digits, taking up to sixteen. */
  function FirstMatch(s: string, i: nat): (r: Option<string>)
    requires i <= |s|
    ensures r.Some? ==> 4 <= |r.value| <= 16 && AllDigits(r.value)
    decreases |s| - i
  {
    if i == |s| then None
    else
      var n := Run(s, i, 16);
      if n >= 4 then Some(s[i..i + n]) else FirstMatch(s, i + 1)
  }

  /** In a digit string the run from `i` is as long as the cap and the rest of
      the string allow. */
  lemma {:induction false} RunOfDigits(v: string, i: nat, cap: nat)
    requires i <= |v| && AllDigits(v)
    ensures Run(v, i, cap) == Min(cap, |v| - i)
    decreases cap
  {
    if cap > 0 && i < |v| {
      RunOfDigits(v, i + 1, cap - 1);
    }
  }

  /** A digit string shorter than four has no match from any position. */
  lemma {:induction false} NoMatchInShortDigits(v: string, i: nat)
    requires i <= |v| < 4 && AllDigits(v)
    ensures FirstMatch(v, i).None?
    decreases |v| - i
  {
    if i < |v| {
      RunOfDigits(v, i, 16);
      NoMatchInShortDigits(v, i + 1);
    }
  }

  /** On the cleaned digit string the regular expression matches its first
      sixteen digits, or nothing when there are fewer than four. */
  lemma FirstMatchOfDigits(v: string)
    requires AllDigits(v)
    ensures FirstMatch(v, 0) == if |v| >= 4 then Some(v[..Min(16, |v|)]) else None
  {
    if |v| >= 4 {
      RunOfDigits(v, 0, 16);
    } else {
      NoMatchInShortDigits(v, 0);
    }
  }

  /** The `substring(i, i + 4)` pieces the loop pushes: groups of four, the
      last one possibly shorter. */
  function Chunks(m: string): (parts: seq<string>)
    ensures |parts| == 0 <==> |m| == 0
    ensures forall k :: 0 <= k < |parts| ==> 1 <= |parts[k]| <= 4
    ensures forall k :: 0 <= k < |parts| - 1 ==> |parts[k]| == 4
    decreases |m|
  {
    if |m| == 0 then []
    else
      var w := Min(4, |m|);
      [m[..w]] + Chunks(m[w..])
  }

  /** Each group is a piece of a digit string, so none holds a space. */
  lemma {:induction false} ChunksOfDigits(m: string)
    requires AllDigits(m)
    ensures forall k :: 0 <= k < |Chunks(m)| ==> AllDigits(Chunks(m)[k]) && ' ' !in Chunks(m)[k]
    decreases |m|
  {
    if |m| > 0 {
      var w := Min(4, |m|);
      ChunksOfDigits(m[w..]);
      var parts := Chunks(m);
      assert parts == [m[..w]] + Chunks(m[w..]);
      forall k | 0 <= k < |parts| ensures AllDigits(parts[k]) && ' ' !in parts[k] {
        if k == 0 {
          assert parts[0] == m[..w];
        } else {
          assert parts[k] == Chunks(m[w..])[k - 1];
        }
      }
    }
  }

  /** A number of at most four digits is a single group. */
  lemma ChunksShort(m: string)
    requires 0 < |m| <= 4
    ensures Chunks(m) == [m]
    ensures Join(Chunks(m), ' ') == m
  {
    assert m[..|m|] == m;
    assert Chunks(m[|m|..]) == [];
  }

  /** A number longer than four digits is its first group, a space, and
      the grouping of the rest. */
  lemma JoinChunksStep(m: string)
    requires |m| > 4
    ensures Join(Chunks(m), ' ') == m[..4] + [' '] + Join(Chunks(m[4..]), ' ')
  {
    var parts := Chunks(m);
    assert parts == [m[..4]] + Chunks(m[4..]);
    assert parts[1..] == Chunks(m[4..]);
  }

  /** Joining the groups with spaces and dropping the non-digits gives back
      the digit string. */
  lemma {:induction false} DigitsOfJoinedChunks(m: string)
    requires AllDigits(m) && |m| > 0
    ensures Digits(Join(Chunks(m), ' ')) == m
    decreases |m|
  {
    if |m| > 4 {
      JoinChunksStep(m);
      DigitsOfJoinedChunks(m[4..]);
      DigitsAround(m[..4], ' ', Join(Chunks(m[4..]), ' '));
      assert m == m[..4] + m[4..];
    } else {
      ChunksShort(m);
    }
  }

  /** Every character of the joined groups is a digit or a space. */
  lemma {:induction false} JoinedChunksChars(m: string)
    requires AllDigits(m)
    requires |m| > 0
    ensures forall c :: c in Join(Chunks(m), ' ') ==> IsDigit(c) || c == ' '
    decreases |m|
  {
    var w := Min(4, |m|);
    var parts := Chunks(m);
    assert parts[0] == m[..w];
    assert forall c :: c in m[..w] ==> IsDigit(c) by {
      assert forall k :: 0 <= k < w ==> m[..w][k] == m[k];
    }
    if |m| > 4 {
      JoinedChunksChars(m[w..]);
      assert parts[1..] == Chunks(m[w..]);
      assert Join(parts, ' ') == m[..w] + " " + Join(parts[1..], ' ');
    }
  }

  /** `formatCardNumber`: spaces and non-digits dropped, the first
      `\d{4,16}` match cut into space-separated groups of four, or the input
      itself when nothing matched. */
  function FormatCardNumber(value: string): (r: string)
  {
    var v := Digits(RemoveSpaces(value));
    var m := match FirstMatch(v, 0) case Some(x) => x case None => "";
    var parts := Chunks(m);
    if |parts| > 0 then Join(parts, ' ') else value
  }

  /** The digits the formatted number keeps: the first sixteen of the input. */
  function CardDigits(value: string): (d: string)
    ensures AllDigits(d) && |d| <= 16
    ensures |d| <= |Digits(value)| && d == Digits(value)[..|d|]
    ensures |Digits(value)| >= 4 ==> |d| == Min(16, |Digits(value)|)
  {
    Digits(value)[..Min(16, |Digits(value)|)]
  }

  /** Fewer than four digits: the field keeps what was typed. */
  lemma CardShortUnchanged(value: string)
    requires |Digits(value)| < 4
    ensures FormatCardNumber(value) == value
  {
    DigitsOfRemoveSpaces(value);
    FirstMatchOfDigits(Digits(value));
  }

  /** Four digits or more: the result is the first sixteen digits split into
      groups, all of four digits but the last, which has one to four; they
      are joined by single spaces and nothing else. */
  lemma CardGrouped(value: string)
    requires |Digits(value)| >= 4
    ensures var r := FormatCardNumber(value);
      && Split(r, ' ') == Chunks(CardDigits(value))
      && Digits(r) == CardDigits(value)
      && (forall c :: c in r ==> IsDigit(c) || c == ' ')
  {
    DigitsOfRemoveSpaces(value);
    FirstMatchOfDigits(Digits(value));
    var d := CardDigits(value);
    assert FormatCardNumber(value) == Join(Chunks(d), ' ');
    ChunksOfDigits(d);
    SplitJoin(Chunks(d), ' ');
    DigitsOfJoinedChunks(d);
    JoinedChunksChars(d);
  }

  /** Formatting an already formatted number changes nothing. */
  lemma CardIdempotent(value: string)
    ensures FormatCardNumber(FormatCardNumber(value)) == FormatCardNumber(value)
  {
    if |Digits(value)| >= 4 {
      CardGrouped(value);
      var r := FormatCardNumber(value);
      var d := CardDigits(value);
      assert Digits(r) == d && |d| >= 4;
      CardGrouped(r);
      assert CardDigits(r) == d;
    } else {
      CardShortUnchanged(value);
    }
  }

  // ----- formatExpiry -----

  /** `formatExpiry` once spaces and non-digits are gone: a `/` after the
      first two digits, then at most two more; fewer than two digits stay as
      they are. */
  function SlashAfterMonth(v: string): string {
    if |v| >= 2 then v[..2] + "/" + v[2..Min(4, |v|)] else v
  }

  /** `formatExpiry`. */
  function FormatExpiry(value: string): string {
    SlashAfterMonth(Digits(RemoveSpaces(value)))
  }

  /** On a digit string of length two or more: two digits, the only `/`, then
      at most two digits; the digits kept are the first four. */
  lemma SlashShape(v: string)
    requires AllDigits(v) && |v| >= 2
    ensures var r := SlashAfterMonth(v);
      && |r| == Min(4, |v|) + 1 && r[2] == '/'
      && AllDigits(r[..2]) && AllDigits(r[3..])
      && Digits(r) == v[..Min(4, |v|)]
  {
    var a, b := v[..2], v[2..Min(4, |v|)];
    var r := SlashAfterMonth(v);
    assert r == a + ['/'] + b;
    assert r[..2] == a && r[3..] == b;
    DigitsAround(a, '/', b);
    assert v[..Min(4, |v|)] == a + b;
  }

  /** The formatted expiry holds only digits and at most one `/`: with two
      digits or more it is `MM/` followed by up to two more digits (five
      characters at most) and its digits are the first four of the input;
      otherwise it is the input's digits. */
  lemma ExpiryShape(value: string)
    ensures var r := FormatExpiry(value);
      var n := |Digits(value)|;
      && (n >= 2 ==> && |r| == Min(4, n) + 1 && r[2] == '/'
                     && AllDigits(r[..2]) && AllDigits(r[3..])
                     && Digits(r) == Digits(value)[..Min(4, n)])
      && (n < 2 ==> r == Digits(value))
  {
    DigitsOfRemoveSpaces(value);
    if |Digits(value)| >= 2 {
      SlashShape(Digits(value));
    }
  }

  /** Re-formatting the digits of a formatted digit string gives it back. */
  lemma SlashTwice(v: string)
    requires AllDigits(v)
    ensures SlashAfterMonth(Digits(SlashAfterMonth(v))) == SlashAfterMonth(v)
  {
    if |v| >= 2 {
      SlashShape(v);
      var d := v[..Min(4, |v|)];
      assert d[..2] == v[..2] && d[2..Min(4, |d|)] == v[2..Min(4, |v|)];
    }
  }

  /** Formatting an already formatted expiry changes nothing. */
  lemma ExpiryIdempotent(value: string)
    ensures FormatExpiry(FormatExpiry(value)) == FormatExpiry(value)
  {
    DigitsOfRemoveSpaces(value);
    DigitsOfRemoveSpaces(FormatExpiry(value));
    SlashTwice(Digits(value));
  }

  // ----- The CVV field -----

  /** The CVV field's filter: the digits typed, at most four of them. */
  function Cvv(value: string): (r: string)
    ensures AllDigits(r) && |r| <= 4
    ensures |r| <= |Digits(value)| && r == Digits(value)[..|r|]
    ensures |r| == Min(4, |Digits(value)|)
  {
    Digits(value)[..Min(4, |Digits(value)|)]
  }

  /** Filtering an already filtered CVV changes nothing. */
  lemma CvvIdempotent(value: string)
    ensures Cvv(Cvv(value)) == Cvv(value)
  {
  }

  // ----- PLANS -----

  datatype Plan = Plan(id: string, name: string, months: nat, priceCents: nat, connections: nat, savings: Option<string>)

  /** The renew page's price table; the first entry is preselected. */
  const Plans: seq<Plan> := [
    Plan("1mo", "1 Month", 1, 2000, 3, None),
    Plan("6mo", "6 Months", 6, 9000, 3, Some("Save $30")),
    Plan("12mo", "12 Months", 12, 15000, 3, Some("Save $90"))
  ]

  function DigitChar(d: nat): char
    requires d < 10
  {
    ('0' as int + d) as char
  }

  function DigitValue(c: char): nat
    requires IsDigit(c)
  {
    (c as int - '0' as int) as nat
  }

  /** The value of a decimal digit string. */
  function DecimalValue(s: string): nat
    requires AllDigits(s)
  {
    if |s| == 0 then 0 else 10 * DecimalValue(s[..|s| - 1]) + DigitValue(s[|s| - 1])
  }

  /** A natural number written in decimal, as template literals print it. */
  function Decimal(n: nat): (r: string)
    ensures |r| >= 1 && AllDigits(r)
    ensures DecimalValue(r) == n
    ensures n > 0 ==> r[0] != '0'
  {
    if n < 10 then [DigitChar(n)]
    else
      var r := Decimal(n / 10) + [DigitChar(n % 10)];
      assert r[..|r| - 1] == Decimal(n / 10);
      r
  }

  /** What a plan saves against paying the one-month price each month. */
  function Saved(p: Plan): int {
    p.months * Plans[0].priceCents - p.priceCents
  }

  /** The label a plan would carry for its savings, in whole dollars. */
  function SavingsLabel(p: Plan): string
    requires Saved(p) >= 0
  {
    "Save $" + Decimal(Saved(p) / 100)
  }

  /** Every plan in the table with a saving shows exactly that saving, in whole
      dollars, and a plan without one shows no label. */
  lemma PlanSavings()
    ensures forall i :: 0 <= i < |Plans| ==> Saved(Plans[i]) >= 0 && Saved(Plans[i]) % 100 == 0
    ensures forall i :: 0 <= i < |Plans| ==>
      Plans[i].savings == if Saved(Plans[i]) > 0 then Some(SavingsLabel(Plans[i])) else None
  {
    assert Saved(Plans[1]) == 3000 && Saved(Plans[2]) == 3000 * 3;
    assert Decimal(30) == "30" by {
      assert DigitChar(3) == '3' && DigitChar(0) == '0';
      assert Decimal(30) == Decimal(3) + [DigitChar(0)];
    }
    assert Decimal(90) == "90" by {
      assert DigitChar(9) == '9' && DigitChar(0) == '0';
      assert Decimal(90) == Decimal(9) + [DigitChar(0)];
    }
    assert SavingsLabel(Plans[1]) == "Save $" + "30" == "Save $30";
    assert SavingsLabel(Plans[2]) == "Save $" + "90" == "Save $90";
  }

  /** A longer plan costs strictly less per month, and every plan allows three
      connections. */
  lemma LongerPlansCheaper()
    ensures forall i, j :: 0 <= i < j < |Plans| ==>
      Plans[i].months < Plans[j].months && Plans[j].priceCents * Plans[i].months < Plans[i].priceCents * Plans[j].months
    ensures forall i :: 0 <= i < |Plans| ==> Plans[i].connections == 3
  {
  }
}

=== FILE: seqs.dfy ===
/** `Array.prototype.filter` on immutable sequences, and what the matcher
    needs to know about it. */
module Seqs {

  /** The elements of `s` that satisfy `p`, in their original order. */
  function Filter<T(!new)>(s: seq<T>, p: T -> bool): (r: seq<T>)
    ensures |r| <= |s|
    ensures forall x :: x in r <==> x in s && p(x)
    decreases |s|
  {
    if |s| == 0 then []
    else
      var rest := Filter(s[1..], p);
      assert forall x :: x in s <==> x == s[0] || x in s[1..];
      if p(s[0]) then [s[0]] + rest else rest
  }

  /** Filtering is taken piecewise, so it keeps the original order. */
  lemma {:induction false} FilterConcat<T(!new)>(a: seq<T>, b: seq<T>, p: T -> bool)
    ensures Filter(a + b, p) == Filter(a, p) + Filter(b, p)
    decreases |a|
  {
    if |a| > 0 {
      assert (a + b)[1..] == a[1..] + b;
      FilterConcat(a[1..], b, p);
    } else {
      assert a + b == b;
    }
  }

  /** A filter that everything passes keeps everything. */
  lemma {:induction false} FilterAll<T(!new)>(s: seq<T>, p: T -> bool)
    requires forall j :: 0 <= j < |s| ==> p(s[j])
    ensures Filter(s, p) == s
    decreases |s|
  {
    if |s| > 0 {
      assert p(s[0]);
      FilterAll(s[1..], p);
      assert [s[0]] + s[1..] == s;
    }
  }

  /** Exactly one element of `s` passes `p`. */
  predicate ExactlyOne<T>(s: seq<T>, p: T -> bool) {
    exists i :: 0 <= i < |s| && p(s[i]) && forall j :: 0 <= j < |s| && j != i ==> !p(s[j])
  }

  /** A filter keeps nothing iff nothing passes. */
  lemma FilterNone<T(!new)>(s: seq<T>, p: T -> bool)
    ensures |Filter(s, p)| == 0 <==> forall j :: 0 <= j < |s| ==> !p(s[j])
  {
    if |Filter(s, p)| > 0 {
      assert Filter(s, p)[0] in Filter(s, p);
    }
  }

  /** When the head passes, exactly one passes iff nothing after the head does. */
  lemma ExactlyOneHeadPasses<T>(s: seq<T>, p: T -> bool)
    requires |s| > 0 && p(s[0])
    ensures ExactlyOne(s, p) <==> forall j :: 0 <= j < |s[1..]| ==> !p(s[1..][j])
  {
    if forall j :: 0 <= j < |s[1..]| ==> !p(s[1..][j]) {
      assert forall j :: 0 <= j < |s| && j != 0 ==> !p(s[j]) by {
        forall j | 0 <= j < |s| && j != 0 ensures !p(s[j]) {
          assert s[j] == s[1..][j - 1];
        }
      }
    } else {
      var k :| 0 <= k < |s[1..]| && p(s[1..][k]);
      assert p(s[k + 1]);
    }
  }

  /** When the head fails, exactly one passes iff exactly one after the head does. */
  lemma ExactlyOneHeadFails<T>(s: seq<T>, p: T -> bool)
    requires |s| > 0 && !p(s[0])
    ensures ExactlyOne(s, p) <==> ExactlyOne(s[1..], p)
  {
    if ExactlyOne(s, p) {
      var i :| 0 <= i < |s| && p(s[i]) && forall j :: 0 <= j < |s| && j != i ==> !p(s[j]);
      assert p(s[1..][i - 1]);
      assert forall j :: 0 <= j < |s[1..]| && j != i - 1 ==> !p(s[1..][j]) by {
        forall j | 0 <= j < |s[1..]| && j != i - 1 ensures !p(s[1..][j]) {
          assert s[1..][j] == s[j + 1];
        }
      }
    }
    if ExactlyOne(s[1..], p) {
      var i :| 0 <= i < |s[1..]| && p(s[1..][i]) && forall j :: 0 <= j < |s[1..]| && j != i ==> !p(s[1..][j]);
      assert p(s[i + 1]);
      assert forall j :: 0 <= j < |s| && j != i + 1 ==> !p(s[j]) by {
        forall j | 0 <= j < |s| && j != i + 1 ensures !p(s[j]) {
          if j > 0 {
            assert s[j] == s[1..][j - 1];
          }
        }
      }
    }
  }

  /** A filter keeps exactly one element iff exactly one element passes, and
      then the element kept is one of `s` that passes. */
  lemma {:induction false} FilterSingle<T(!new)>(s: seq<T>, p: T -> bool)
    ensures |Filter(s, p)| == 1 <==> ExactlyOne(s, p)
    decreases |s|
  {
    if |s| > 0 {
      FilterSingle(s[1..], p);
      if p(s[0]) {
        FilterNone(s[1..], p);
        ExactlyOneHeadPasses(s, p);
      } else {
        ExactlyOneHeadFails(s, p);
      }
    }
  }
}

=== FILE: signup.dfy ===
/**
 * The pure part of the signup handler (`POST` in
 * src/app/api/match-account/route.ts): the field check, the expiry token
 * taken from a linked customer, and the row written for each outcome.
 */
module Signup {
  import opened Wrappers
  import opened Text
  import opened MatchAccount

  /** The JSON body of a signup; a field that is absent is `None`. */
  datatype SignupRequest = SignupRequest(name: Option<string>, phone: Option<string>, userId: Option<string>, email: Option<string>)

  /** The `user_subscriptions` row written on an automatic link. The expiry
      is kept as the reordered `YYYY-MM-DD` text. */
  datatype NewSubscription = NewSubscription(
    userId: string, iptvUsername: string, status: string,
    expiresOn: Option<string>, planName: string, priceCents: int)

  /** The `pending_matches` row written for a review or a miss. */
  datatype NewPending = NewPending(
    userId: string, userName: string, userPhone: string, userEmail: string,
    matchedUsername: Option<string>, confidence: Option<real>, status: string)

  datatype Write = NoWrite | InsertSubscription(subscription: NewSubscription) | InsertPending(pending: NewPending)

  /** The reply: 400 for missing fields, otherwise a JSON body saying whether
      the account was matched, how, and (on a link) to which username. */
  datatype Reply = MissingFields | Answer(matched: bool, status: Status, username: Option<string>)

  datatype Outcome = Outcome(reply: Reply, write: Write)

  /** The plan and price an automatic link records. */
  const LinkedPlan := "1 Month"
  const LinkedPriceCents := 2500

  // ----- The expiry token -----

  /** `\d{2}-\d{2}-\d{4}` matches at position `i` of `s`. */
  predicate DateAt(s: string, i: nat) {
    && i + 10 <= |s|
    && IsDigit(s[i]) && IsDigit(s[i + 1]) && s[i + 2] == '-'
    && IsDigit(s[i + 3]) && IsDigit(s[i + 4]) && s[i + 5] == '-'
    && IsDigit(s[i + 6]) && IsDigit(s[i + 7]) && IsDigit(s[i + 8]) && IsDigit(s[i + 9])
  }

  /** The leftmost position at or after `i` where the date pattern matches. */
  function FindDate(s: string, i: nat): (r: Option<nat>)
    requires i <= |s|
    ensures r.None? <==> forall j :: i <= j <= |s| ==> !DateAt(s, j)
    ensures r.Some? ==> i <= r.value && DateAt(s, r.value) && forall j :: i <= j < r.value ==> !DateAt(s, j)
    decreases |s| - i
  {
    if i + 10 > |s| then None
    else if DateAt(s, i) then Some(i)
    else FindDate(s, i + 1)
  }

  /** A `DD-MM-YYYY` token reordered as `YYYY-MM-DD`: a matched token gives
      four, two and two digits around the dashes. */
  function Reorder(token: string): (r: string)
    requires |token| == 10
    ensures |r| == 10 && r[4] == '-' && r[7] == '-'
    ensures DateAt(token, 0) ==> AllDigits(r[..4]) && AllDigits(r[5..7]) && AllDigits(r[8..])
  {
    token[6..10] + "-" + token[3..5] + "-" + token[0..2]
  }

  /** The first `DD-MM-YYYY` token of a customer's expiry text, reordered as
      `YYYY-MM-DD`; `None` when the text holds no such token. */
  function ExpiryToken(expiry: string): (r: Option<string>)
    ensures r.None? <==> forall j :: 0 <= j <= |expiry| ==> !DateAt(expiry, j)
    ensures r.Some? ==>
      && |r.value| == 10 && r.value[4] == '-' && r.value[7] == '-'
      && AllDigits(r.value[..4]) && AllDigits(r.value[5..7]) && AllDigits(r.value[8..])
  {
    match FindDate(expiry, 0)
    case None => None
    case Some(i) => Some(Reorder(expiry[i..i + 10]))
  }

  /** A matched token is three dash-free fields joined by `-`. */
  lemma TokenJoin(token: string)
    requires |token| == 10 && DateAt(token, 0)
    ensures Join([token[..2], token[3..5], token[6..]], '-') == token
    ensures '-' !in token[..2] && '-' !in token[3..5] && '-' !in token[6..]
  {
    var parts := [token[..2], token[3..5], token[6..]];
    assert parts[1..][1..] == [parts[2]];
    assert Join(parts[1..], '-') == token[3..5] + "-" + token[6..];
    assert token == token[..2] + "-" + token[3..5] + "-" + token[6..];
  }

  /** Split on `-`, a matched token gives its day, month and year, and
      `Reorder` puts them in reverse order. */
  lemma TokenSplit(token: string)
    requires |token| == 10 && DateAt(token, 0)
    ensures var parts := Split(token, '-');
      |parts| == 3 && Reorder(token) == parts[2] + "-" + parts[1] + "-" + parts[0]
  {
    TokenJoin(token);
    SplitJoin([token[..2], token[3..5], token[6..]], '-');
  }

  /** The expiry token is the leftmost date in the text, split into its
      three fields and put back together year first. */
  lemma ExpiryTokenSplits(expiry: string, i: nat)
    requires i <= |expiry| && DateAt(expiry, i)
    requires forall j :: 0 <= j < i ==> !DateAt(expiry, j)
    ensures var parts := Split(expiry[i..i + 10], '-');
      |parts| == 3 && ExpiryToken(expiry) == Some(parts[2] + "-" + parts[1] + "-" + parts[0])
  {
    var token := expiry[i..i + 10];
    assert FindDate(expiry, 0) == Some(i);
    assert DateAt(token, 0);
    TokenSplit(token);
  }

  /** The export's expiry column as the panel writes it. */
  lemma ExpiryTokenExample()
    ensures ExpiryToken("15-01-2027 13:39\n352 days left") == Some("2027-01-15")
  {
    var s := "15-01-2027 13:39\n352 days left";
    assert DateAt(s, 0);
    assert FindDate(s, 0) == Some(0);
    var token := s[0..10];
    assert token == "15-01-2027";
    assert token[6..10] == "2027" && token[3..5] == "01" && token[0..2] == "15";
    assert Reorder(token) == "2027" + "-" + "01" + "-" + "15" == "2027-01-15";
    assert ExpiryToken(s) == Some(Reorder(token));
  }

  // ----- The handler -----

  /**
   * The signup handler on an already loaded customer list: a missing name,
   * phone or user id is rejected; otherwise the match decides what is
   * written: an active "1 Month" subscription at 2500 cents for a link, or a
   * pending match row, which names the matched username and confidence only
   * for a review.
   */
  function HandleSignup(req: SignupRequest, customers: seq<Customer>): (o: Outcome)
    ensures o.reply == MissingFields <==> !Given(req.name) || !Given(req.phone) || !Given(req.userId)
    ensures o.reply == MissingFields ==> o.write == NoWrite
    ensures o.reply.Answer? ==>
      var r := MatchCustomer(req.name.value, req.phone.value, req.email.GetOr(""), customers);
      && o.reply.status == r.status
      && (o.reply.matched <==> r.status == AutoLink)
      && (r.status == AutoLink ==>
            && o.write.InsertSubscription?
            && o.write.subscription == NewSubscription(req.userId.value, r.customer.value.username, "active",
                                                       ExpiryToken(r.customer.value.expiry), LinkedPlan, LinkedPriceCents)
            && o.reply.username == Some(r.customer.value.username))
      && (r.status != AutoLink ==>
            && o.reply.username.None?
            && o.write.InsertPending?
            && o.write.pending.userId == req.userId.value
            && o.write.pending.userName == req.name.value
            && o.write.pending.userPhone == req.phone.value
            && o.write.pending.userEmail == req.email.GetOr("")
            && o.write.pending.status == "pending"
            && (o.write.pending.matchedUsername.Some? <==> r.status == ReviewRequired)
            && (o.write.pending.confidence.Some? <==> r.status == ReviewRequired)
            && (r.status == ReviewRequired ==>
                  && o.write.pending.matchedUsername == Some(r.customer.value.username)
                  && o.write.pending.confidence == Some(r.confidence)))
  {
    if !Given(req.name) || !Given(req.phone) || !Given(req.userId) then Outcome(MissingFields, NoWrite)
    else
      var name := req.name.value;
      var phone := req.phone.value;
      var userId := req.userId.value;
      var email := req.email.GetOr("");
      var result := MatchCustomer(name, phone, email, customers);
      if result.status == AutoLink && result.customer.Some? then
        var c := result.customer.value;
        Outcome(Answer(true, AutoLink, Some(c.username)),
                InsertSubscription(NewSubscription(userId, c.username, "active", ExpiryToken(c.expiry), LinkedPlan, LinkedPriceCents)))
      else if result.status == ReviewRequired && result.customer.Some? then
        var c := result.customer.value;
        Outcome(Answer(false, ReviewRequired, None),
                InsertPending(NewPending(userId, name, phone, email, Some(c.username), Some(result.confidence), "pending")))
      else
        Outcome(Answer(false, NoMatch, None),
                InsertPending(NewPending(userId, name, phone, email, None, None, "pending")))
  }

  /** A linked signup was matched by a phone number of at least ten digits,
      and the subscription it writes names that customer. */
  lemma AutoLinkNeedsPhone(req: SignupRequest, customers: seq<Customer>)
    requires HandleSignup(req, customers).write.InsertSubscription?
    ensures Given(req.phone) && |NormalizePhone(req.phone.value)| >= MinPhoneDigits
    ensures exists c :: c in customers && c.phone == NormalizePhone(req.phone.value)
              && HandleSignup(req, customers).write.subscription.iptvUsername == c.username
  {
    var r := MatchCustomer(req.name.value, req.phone.value, req.email.GetOr(""), customers);
    assert r.customer.value in customers;
  }
}

=== FILE: store.dfy ===
/**
 * The database rows the subscription and admin routes read and write, as an
 * in-memory store, and the signed-in caller those routes check.
 */
module Store {
  import opened Wrappers

  /** A `user_subscriptions` row. `expiresAt` is the expiry in milliseconds
      since the epoch; absent fields are `None`. */
  datatype Subscription = Subscription(
    iptvUsername: string, iptvPassword: Option<string>, status: string,
    expiresAt: Option<int>, planName: Option<string>, priceCents: int)

  /** A `pending_matches` row: whose signup it is and its review state. */
  datatype PendingMatch = PendingMatch(userId: string, matchedUsername: Option<string>, status: string)

  /** A `support_requests` row. */
  datatype SupportRequest = SupportRequest(userId: string, status: string)

  /** Subscriptions by user id (one per user); pending matches and support
      requests by their own row id. */
  datatype Store = Store(
    subscriptions: map<string, Subscription>,
    pending: map<string, PendingMatch>,
    support: map<string, SupportRequest>)

  /** The session's user, when there is one. */
  datatype User = User(id: string, email: Option<string>)

  /** `!user || !ADMIN_EMAILS.includes(user.email || '')` negated: a signed-in
      user whose email is on the allow-list. */
  predicate Authorized(user: Option<User>, admins: seq<string>) {
    user.Some? && user.value.email.GetOr("") in admins
  }

  /** Some pending match, whatever its status, belongs to `userId`. */
  predicate HasPending(pending: map<string, PendingMatch>, userId: string) {
    exists id :: id in pending && pending[id].userId == userId
  }
}

=== FILE: subscription.dfy ===
/**
 * The subscription status route (`GET` in src/app/api/subscription/route.ts):
 * whose subscription is asked for, the pending/unlinked fallback, and the
 * status, days remaining and plan name derived from a subscription row.
 */
module SubscriptionStatus {
  import opened Wrappers
  import opened Text
  import opened Store

  /** Milliseconds in a day. */
  const DayMillis := 1000 * 60 * 60 * 24

  /** The plan name shown when the row has none. */
  const DefaultPlanName := "Omega TV Premium"

  /** The subscription object the route sends back for the renew page: a
      selection of the row's columns that leaves out the panel password. */
  datatype SubscriptionView = SubscriptionView(
    iptvUsername: string, planName: Option<string>, priceCents: int,
    status: string, expiresAt: Option<int>)

  /** The route's reply. `expiryDate` is the expiry in milliseconds, or `None`
      where the route shows "Unknown"; `subscription` is the selected columns
      of the row. */
  datatype Reply =
    | Unauthorized
    | PendingSetup
    | Unlinked
    | Details(status: string, username: string, expiryDate: Option<int>,
              daysRemaining: Option<int>, planName: string, subscription: SubscriptionView)

  /** `Math.ceil(diff / DayMillis)`, on exact integers. */
  function DaysUntil(diff: int): (d: int)
    ensures (d - 1) * DayMillis < diff <= d * DayMillis
  {
    -((-diff) / DayMillis)
  }

  /** Whole days remain exactly when the expiry is still ahead. */
  lemma DaysUntilPositive(diff: int)
    ensures DaysUntil(diff) > 0 <==> diff > 0
  {
  }

  /** The days until expiry, or `None` for a row without one. */
  function DaysRemaining(sub: Subscription, now: int): (d: Option<int>)
    ensures d.None? <==> sub.expiresAt.None?
    ensures d.Some? ==> (d.value - 1) * DayMillis < sub.expiresAt.value - now <= d.value * DayMillis
  {
    match sub.expiresAt
    case None => None
    case Some(e) => Some(DaysUntil(e - now))
  }

  /** The status shown: the stored one for a row without an expiry,
      otherwise "active" while days remain and "expired" after. */
  function ShownStatus(sub: Subscription, now: int): string {
    match DaysRemaining(sub, now)
    case None => sub.status
    case Some(d) => if d > 0 then "active" else "expired"
  }

  /** `subscription.plan_name || DefaultPlanName`. */
  function ShownPlan(sub: Subscription): (p: string)
    ensures p != ""
    ensures Given(sub.planName) ==> p == sub.planName.value
    ensures !Given(sub.planName) ==> p == DefaultPlanName
  {
    if Given(sub.planName) then sub.planName.value else DefaultPlanName
  }

  /**
   * The route: the `userId` query parameter, or else the session's user; no
   * subscription row gives "pending" when a pending match exists for the user
   * and "unlinked" otherwise.
   */
  function GetSubscription(queryUserId: Option<string>, session: Option<User>, store: Store, now: int): (r: Reply)
    ensures r.Unauthorized? <==> !Given(queryUserId) && session.None?
    ensures !r.Unauthorized? ==>
      var u := if Given(queryUserId) then queryUserId.value else session.value.id;
      && (r.Details? <==> u in store.subscriptions)
      && (r.PendingSetup? <==> u !in store.subscriptions && HasPending(store.pending, u))
      && (r.Details? ==>
            var sub := store.subscriptions[u];
            && r.username == sub.iptvUsername
            && r.subscription.iptvUsername == sub.iptvUsername
            && r.subscription.planName == sub.planName
            && r.subscription.priceCents == sub.priceCents
            && r.subscription.status == sub.status
            && r.subscription.expiresAt == sub.expiresAt)
  {
    if !Given(queryUserId) && session.None? then Unauthorized
    else
      var u := if Given(queryUserId) then queryUserId.value else session.value.id;
      if u !in store.subscriptions then
        if HasPending(store.pending, u) then PendingSetup else Unlinked
      else
        var sub := store.subscriptions[u];
        var days := DaysRemaining(sub, now);
        Details(ShownStatus(sub, now), sub.iptvUsername, sub.expiresAt,
                match days case None => None case Some(d) => Some(if d > 0 then d else 0),
                ShownPlan(sub),
                SubscriptionView(sub.iptvUsername, sub.planName, sub.priceCents, sub.status, sub.expiresAt))
  }

  /** The reply does not depend on the stored panel password: changing it
      changes nothing the route sends back. */
  lemma PasswordNotShown(queryUserId: Option<string>, session: Option<User>, store: Store, now: int,
                         u: string, password: Option<string>)
    requires u in store.subscriptions
    ensures var other := store.(subscriptions := store.subscriptions[u := store.subscriptions[u].(iptvPassword := password)]);
      GetSubscription(queryUserId, session, other, now) == GetSubscription(queryUserId, session, store, now)
  {
  }

  /** A row's details: with an expiry the status is "active" exactly while
      the expiry is ahead of now and "expired" otherwise; without one the
      stored status shows. The days shown are never negative, are missing
      exactly when the expiry is, and count the days left when it is ahead. */
  lemma DetailsFacts(queryUserId: Option<string>, session: Option<User>, store: Store, now: int)
    requires GetSubscription(queryUserId, session, store, now).Details?
    ensures var r := GetSubscription(queryUserId, session, store, now);
      var sub := r.subscription;
      && (sub.expiresAt.Some? ==> (r.status == "active" <==> sub.expiresAt.value > now))
      && (sub.expiresAt.Some? ==> (r.status == "active" || r.status == "expired"))
      && (sub.expiresAt.None? ==> r.status == sub.status)
      && (r.daysRemaining.None? <==> sub.expiresAt.None?)
      && (r.daysRemaining.Some? ==> r.daysRemaining.value >= 0)
      && (r.daysRemaining.Some? && sub.expiresAt.value > now ==>
            (r.daysRemaining.value - 1) * DayMillis < sub.expiresAt.value - now <= r.daysRemaining.value * DayMillis)
      && (r.daysRemaining.Some? && sub.expiresAt.value <= now ==> r.daysRemaining.value == 0)
      && r.expiryDate == sub.expiresAt
      && (Given(sub.planName) ==> r.planName == sub.planName.value)
      && (!Given(sub.planName) ==> r.planName == DefaultPlanName)
  {
    var r := GetSubscription(queryUserId, session, store, now);
    var sub := r.subscription;
    if sub.expiresAt.Some? {
      DaysUntilPositive(sub.expiresAt.value - now);
    }
  }
}

=== FILE: text.dfy ===
/**
 * The JavaScript string built-ins the core relies on, restricted to ASCII:
 * the `\d` / `\D` / `\s` character classes, `toLowerCase`, `trim` and
 * `split` with a one-character separator.
 */
module Text {
  import opened Wrappers

  function Min(x: nat, y: nat): nat {
    if x <= y then x else y
  }

  /** JavaScript truthiness of an optional string: present and not empty. */
  predicate Given(x: Option<string>) {
    x.Some? && x.value != ""
  }

  /** JavaScript's `\d`: an ASCII decimal digit. */
  predicate IsDigit(c: char) {
    '0' <= c <= '9'
  }

  /** JavaScript's `\s` and the characters `trim` removes, on ASCII. */
  predicate IsSpace(c: char) {
    c == ' ' || c == '\t' || c == '\n' || c == '\r' || c == '\U{B}' || c == '\U{C}'
  }

  predicate AllDigits(s: string) {
    forall i :: 0 <= i < |s| ==> IsDigit(s[i])
  }

  /** `s.replace(/\D/g, '')`: the digits of `s`, in their original order. */
  function Digits(s: string): (r: string)
    ensures AllDigits(r)
    ensures |r| <= |s|
    ensures AllDigits(s) ==> r == s
  {
    if |s| == 0 then ""
    else (if IsDigit(s[0]) then [s[0]] else "") + Digits(s[1..])
  }

  /** `Digits` keeps every digit of `s`, each as often as it occurs. */
  lemma {:induction false} DigitsCount(s: string)
    ensures forall c :: IsDigit(c) ==> multiset(Digits(s))[c] == multiset(s)[c]
    decreases |s|
  {
    if |s| > 0 {
      DigitsCount(s[1..]);
      assert s == [s[0]] + s[1..];
      var head := if IsDigit(s[0]) then [s[0]] else "";
      assert multiset(Digits(s)) == multiset(head) + multiset(Digits(s[1..]));
      assert multiset(s) == multiset([s[0]]) + multiset(s[1..]);
    }
  }

  /** Removing non-digits distributes over concatenation: together with the
      one-character case this fixes `Digits` completely. */
  lemma {:induction false} DigitsConcat(a: string, b: string)
    ensures Digits(a + b) == Digits(a) + Digits(b)
    decreases |a|
  {
    if |a| == 0 {
      assert a + b == b;
    } else {
      assert (a + b)[1..] == a[1..] + b;
      DigitsConcat(a[1..], b);
    }
  }

  lemma Regroup(a: string, c: char, b: string)
    ensures a + [c] + b == a + ([c] + b)
  {
  }

  lemma DigitsOfDigitsPrefix(a: string, t: string)
    requires AllDigits(a)
    ensures Digits(a + t) == a + Digits(t)
  {
    DigitsConcat(a, t);
  }

  lemma DigitsAfterNonDigit(c: char, b: string)
    requires !IsDigit(c)
    ensures Digits([c] + b) == Digits(b)
  {
    var t := [c] + b;
    assert t[0] == c && t[1..] == b;
  }

  /** A digit string, one non-digit, then anything: the non-digit goes and
      the digit string stays whole. */
  lemma DigitsAround(a: string, c: char, b: string)
    requires AllDigits(a) && !IsDigit(c)
    ensures Digits(a + [c] + b) == a + Digits(b)
  {
    Regroup(a, c, b);
    DigitsAfterNonDigit(c, b);
    DigitsOfDigitsPrefix(a, [c] + b);
  }

  /** `s.replace(/\r/g, '')` for `c == '\r'`: every occurrence of `c` dropped,
      every other character kept. */
  function Remove(s: string, c: char): (r: string)
    ensures c !in r
    ensures |r| <= |s|
    ensures c !in s ==> r == s
    ensures forall d :: d != c ==> multiset(r)[d] == multiset(s)[d]
  {
    if |s| == 0 then ""
    else
      assert s == [s[0]] + s[1..];
      var head := if s[0] == c then "" else [s[0]];
      assert multiset(head + Remove(s[1..], c)) == multiset(head) + multiset(Remove(s[1..], c));
      assert multiset(s) == multiset([s[0]]) + multiset(s[1..]);
      head + Remove(s[1..], c)
  }

  /** `s.replace(/\s+/g, '')`: every whitespace character dropped. */
  function RemoveSpaces(s: string): (r: string)
    ensures forall i :: 0 <= i < |r| ==> !IsSpace(r[i])
    ensures |r| <= |s|
  {
    if |s| == 0 then ""
    else (if IsSpace(s[0]) then "" else [s[0]]) + RemoveSpaces(s[1..])
  }

  /** Dropping whitespace first changes nothing about the digits that remain. */
  lemma {:induction false} DigitsOfRemoveSpaces(s: string)
    ensures Digits(RemoveSpaces(s)) == Digits(s)
    decreases |s|
  {
    if |s| > 0 {
      DigitsOfRemoveSpaces(s[1..]);
      if IsSpace(s[0]) {
        assert RemoveSpaces(s) == RemoveSpaces(s[1..]);
      } else {
        var t := RemoveSpaces(s);
        assert t[0] == s[0] && t[1..] == RemoveSpaces(s[1..]);
      }
    }
  }

  function LowerChar(c: char): char {
    if 'A' <= c <= 'Z' then (c as int + 32) as char else c
  }

  /** `s.toLowerCase()` on ASCII letters; every other character is kept. */
  function Lower(s: string): (r: string)
    ensures |r| == |s|
    ensures forall i :: 0 <= i < |s| ==> r[i] == LowerChar(s[i])
    ensures forall c :: c in r ==> !('A' <= c <= 'Z')
  {
    seq(|s|, i requires 0 <= i < |s| => LowerChar(s[i]))
  }

  /** `s.trim()`: `s` without its leading and trailing whitespace. */
  function Trim(s: string): (r: string)
    ensures |r| > 0 ==> !IsSpace(r[0]) && !IsSpace(r[|r| - 1])
    ensures |r| <= |s| && forall c :: c in r ==> c in s
  {
    var a := SpacePrefix(s, 0);
    var b := SpaceSuffix(s, a, |s|);
    s[a..b]
  }

  /** Trimming only drops whitespace, and only at the two ends: the result is
      a slice of `s` with nothing but whitespace before and after it. */
  lemma TrimIsSlice(s: string)
    ensures exists a, b :: 0 <= a <= b <= |s| && Trim(s) == s[a..b]
                           && (forall i :: 0 <= i < a ==> IsSpace(s[i]))
                           && (forall i :: b <= i < |s| ==> IsSpace(s[i]))
  {
    var a := SpacePrefix(s, 0);
    var b := SpaceSuffix(s, a, |s|);
    assert Trim(s) == s[a..b];
  }

  /** The first index at or after `i` that is not whitespace (or `|s|`). */
  function SpacePrefix(s: string, i: nat): (a: nat)
    requires i <= |s|
    ensures i <= a <= |s|
    ensures forall k :: i <= k < a ==> IsSpace(s[k])
    ensures a < |s| ==> !IsSpace(s[a])
    decreases |s| - i
  {
    if i == |s| || !IsSpace(s[i]) then i else SpacePrefix(s, i + 1)
  }

  /** The end of `s[a..j]` once trailing whitespace is dropped. */
  function SpaceSuffix(s: string, a: nat, j: nat): (b: nat)
    requires a <= j <= |s|
    ensures a <= b <= j
    ensures forall k :: b <= k < j ==> IsSpace(s[k])
    ensures b > a ==> !IsSpace(s[b - 1])
    decreases j
  {
    if j == a || !IsSpace(s[j - 1]) then j else SpaceSuffix(s, a, j - 1)
  }

  /** Text without surrounding whitespace is its own trim. */
  lemma TrimOfTrimmed(s: string)
    requires |s| > 0 ==> !IsSpace(s[0]) && !IsSpace(s[|s| - 1])
    ensures Trim(s) == s
  {
  }

  /** The parts of `s.split(sep)`, joined back with `sep`. */
  function Join(parts: seq<string>, sep: char): string
    requires |parts| >= 1
  {
    if |parts| == 1 then parts[0] else parts[0] + [sep] + Join(parts[1..], sep)
  }

  /** `s.split(sep)` for a one-character separator: never empty (`"".split(',')`
      is `[""]`), no part contains `sep`, and joining the parts restores `s`. */
  function Split(s: string, sep: char): (parts: seq<string>)
    ensures |parts| >= 1
    ensures forall i :: 0 <= i < |parts| ==> sep !in parts[i]
    ensures Join(parts, sep) == s
    decreases |s|
  {
    if |s| == 0 then [""]
    else
      var rest := Split(s[1..], sep);
      if s[0] == sep then
        assert ([""] + rest)[1..] == rest;
        [""] + rest
      else
        var parts := [[s[0]] + rest[0]] + rest[1..];
        assert parts[1..] == rest[1..];
        assert s == [s[0]] + s[1..];
        parts
  }

  /** Text without the separator is a single part. */
  lemma {:induction false} SplitWithoutSep(w: string, sep: char)
    requires sep !in w
    ensures Split(w, sep) == [w]
    decreases |w|
  {
    if |w| > 0 {
      SplitWithoutSep(w[1..], sep);
      assert [w[0]] + w[1..] == w;
    }
  }

  /** A separator-free first part followed by the separator splits off as the first part. */
  lemma {:induction false} SplitAfterPart(w: string, t: string, sep: char)
    requires sep !in w
    ensures Split(w + [sep] + t, sep) == [w] + Split(t, sep)
    decreases |w|
  {
    var s := w + [sep] + t;
    if |w| == 0 {
      assert s[1..] == t;
    } else {
      assert s[0] == w[0] && s[1..] == w[1..] + [sep] + t;
      SplitAfterPart(w[1..], t, sep);
      var rest := Split(s[1..], sep);
      assert rest == [w[1..]] + Split(t, sep);
      assert [w[0]] + w[1..] == w;
    }
  }

  /** Splitting undoes joining separator-free parts. */
  lemma {:induction false} SplitJoin(parts: seq<string>, sep: char)
    requires |parts| >= 1 && forall i :: 0 <= i < |parts| ==> sep !in parts[i]
    ensures Split(Join(parts, sep), sep) == parts
    decreases |parts|
  {
    if |parts| == 1 {
      SplitWithoutSep(parts[0], sep);
    } else {
      SplitJoin(parts[1..], sep);
      SplitAfterPart(parts[0], Join(parts[1..], sep), sep);
      assert [parts[0]] + parts[1..] == parts;
    }
  }
}

=== FILE: wrappers.dfy ===
/** The optional values the TypeScript source expresses with `null`/`undefined`. */
module Wrappers {

  datatype Option<+T> = None | Some(value: T) {

    /** The wrapped value, or `default` when there is none (the source's `x || default`). */
    function GetOr(default: T): T {
      match this
      case Some(v) => v
      case None => default
    }
  }
}
